=== FILE: README.md ===
# Todo application — a Dafny model

This project models the core of a small full-stack todo application: a Spring Boot REST API
(`/api/todos`) over a JPA table of todos, and a React client that lists, filters, searches,
creates, edits, toggles and deletes them. Everything is written as pure functions over
immutable data. The clock is a natural-number parameter, and the database is a map from id
to row plus the next identity value.

Modules, one per source file of the core, plus shared helpers:

- `Wrappers`, `Clock`: `Option`, `Result`, and `Time` (a natural number standing for an instant).
- `Strings`: substring search, ASCII case folding, Java's `String.trim` notion of blankness, and decimal rendering and parsing of integers.
- `UriEncoding`: `encodeURIComponent` as ECMA-262 defines it among its URI handling functions. Characters outside `A–Z a–z 0–9 - _ . ! ~ * ' ( )` become their UTF-8 bytes (RFC 3629), each written `%XY` in uppercase hexadecimal, as in section 2.1 of RFC 3986. A reference decoder is included.
- `TodoEntity` (model/Todo.java): the entity, its Bean Validation rules as a predicate and a violation set, and the `@PrePersist`/`@PreUpdate` hooks.
- `TodoRepository` (repository/TodoRepository.java plus the inherited `JpaRepository` calls): the abstract store and its queries and writes.
- `TodoService` (service/TodoService.java): the eight service operations as store transformers. They return a `Result` whose failure is `NotFound` for a missing id or `Rejected` for a row that Bean Validation refuses on save. The third failure, `Invalid`, is the controller's `@Valid` rejection of a request body.
- `TodoController` (controller/TodoController.java): status codes for each endpoint, and request sequences.
- `ClientTodo`, `ClientService` (types/Todo.ts, services/TodoService.ts): the client's todo shape and the request each client call issues. `ClientService.Route` reads a request back into the call that built it.
- `TodoForm` (components/TodoForm.tsx): the Yup schema, the Formik initial values and the submit mapping.
- `TodoList` (components/TodoList.tsx): the filter and search, and the dialog state machine together with the form's values. The machine takes a form setup: as written (non-nullable due date, values kept between openings) or as intended (see Findings).

## Model

| member | source | states |
|---|---|---|
| TodoEntity.Bind | Back-END/todo-api/src/main/java/com/todo/api/model/Todo.java:35 | A body without `completed` binds to `completed == false`; every other field is carried over as given. |
| TodoEntity.Violations | Back-END/todo-api/src/main/java/com/todo/api/model/Todo.java:25-32 | The violation set is empty iff the draft is valid. "Title is required" is reported iff the title is null or all whitespace. "Title cannot exceed 100 characters" is reported iff a title is longer than 100. "Description cannot exceed 500 characters" is reported iff a description is longer than 500. A null description passes. |
| TodoEntity.BlankTitleInvalid | Back-END/todo-api/src/main/java/com/todo/api/model/Todo.java:25 | A title of whitespace only makes the todo invalid, whatever its length. |
| TodoEntity.OnCreate | Back-END/todo-api/src/main/java/com/todo/api/model/Todo.java:46-50 | Persisting stamps `createdAt` and `updatedAt` from two separate clock reads. They are ordered when the clock is, but need not be equal. The client fields and the assigned id are kept. |
| TodoEntity.OnUpdate | Back-END/todo-api/src/main/java/com/todo/api/model/Todo.java:52-55 | An update re-stamps only `updatedAt`; id, client fields and `createdAt` stay as they were. |
| TodoEntity.StampsStayOrdered | Back-END/todo-api/src/main/java/com/todo/api/model/Todo.java:46-55 | After any number of updates at times no earlier than creation, `createdAt` is unchanged and `createdAt <= updatedAt` still holds. |
| TodoRepository.Scan | Back-END/todo-api/src/main/java/com/todo/api/repository/TodoRepository.java:10-12 | A query returns every stored row that meets its condition, only such rows, and each of them once. |
| TodoRepository.Query | Back-END/todo-api/src/main/java/com/todo/api/repository/TodoRepository.java:10-12 | A whole-table query returns all and only the rows meeting its condition, in ascending id order, one entry per such row. |
| TodoRepository.FindAll | Back-END/todo-api/src/main/java/com/todo/api/repository/TodoRepository.java:10 | `findAll` returns exactly the stored rows, in ascending id order, one entry per row: its length is the number of stored rows. |
| TodoRepository.FindById | Back-END/todo-api/src/main/java/com/todo/api/repository/TodoRepository.java:10 | `findById` returns a value iff the id is stored, and that value is the row stored under the id. |
| TodoRepository.FindByCompleted | Back-END/todo-api/src/main/java/com/todo/api/repository/TodoRepository.java:11 | Returns exactly the rows whose `completed` equals the argument, in ascending id order, one entry per such row. |
| TodoRepository.FindByTitleContainingIgnoreCase | Back-END/todo-api/src/main/java/com/todo/api/repository/TodoRepository.java:12 | Returns exactly the rows that have a title containing the query, compared without case, in ascending id order and one entry per such row. |
| TodoRepository.SaveNew | Back-END/todo-api/src/main/java/com/todo/api/repository/TodoRepository.java:10 | Saving an invalid draft is refused with exactly its violations, and nothing is written. A valid draft gets an id that was never issued before: it is above every id in use and positive. Only that row is added and the store stays well formed; its stamps stay in order when the two clock reads are. |
| TodoRepository.SaveExisting | Back-END/todo-api/src/main/java/com/todo/api/repository/TodoRepository.java:10 | Saving an unchanged row writes nothing and runs neither `@PreUpdate` nor validation. A changed row is refused with its violations iff it is invalid. Otherwise it is re-stamped and replaces the row under its id, with `createdAt` untouched and the store well formed. |
| TodoRepository.Delete | Back-END/todo-api/src/main/java/com/todo/api/repository/TodoRepository.java:10 | After `delete(t)`, `t.id` is gone. Every other row and the id counter are unchanged. |
| TodoRepository.CompletedPartitionsAll | Back-END/todo-api/src/main/java/com/todo/api/repository/TodoRepository.java:11 | The completed rows and the open rows together are exactly all rows, as multisets. |
| TodoRepository.ScanLength | Back-END/todo-api/src/main/java/com/todo/api/repository/TodoRepository.java:10-12 | A query over the whole table lists as many entries as there are stored rows meeting its condition. |
| TodoService.NotFoundMessage | Back-END/todo-api/src/main/java/com/todo/api/service/TodoService.java:23 | The message starts with "Todo not found with id: ", and the rest reads back as the id. |
| TodoService.GetAllTodos | Back-END/todo-api/src/main/java/com/todo/api/service/TodoService.java:17-19 | Lists exactly the stored todos, in ascending id order, as many entries as stored rows. |
| TodoService.GetTodoById | Back-END/todo-api/src/main/java/com/todo/api/service/TodoService.java:21-24 | Returns the stored todo iff the id is present. Otherwise it fails with NotFound and the message for that id. |
| TodoService.GetTodosByStatus | Back-END/todo-api/src/main/java/com/todo/api/service/TodoService.java:26-28 | Returns all and only the stored todos whose flag equals the argument, in ascending id order, one entry per such row. |
| TodoService.SearchTodos | Back-END/todo-api/src/main/java/com/todo/api/service/TodoService.java:30-32 | Returns all and only the todos whose lower-cased title contains the lower-cased query, in ascending id order, one entry per such row. |
| TodoService.LowerCaseTitleMatch | Back-END/todo-api/src/main/java/com/todo/api/repository/TodoRepository.java:12 | The store's upper-casing title match is the same relation as matching after lower-casing both sides. |
| TodoService.CreateTodo | Back-END/todo-api/src/main/java/com/todo/api/service/TodoService.java:34-37 | Succeeds iff the body is valid; an invalid body fails with `Rejected` and its violations, and the store is unchanged. On success the saved todo carries the body's fields, a fresh positive id and the two clock readings. A later `getTodoById` on that id returns it, every earlier todo reads as before, and the store stays well formed. |
| TodoService.UpdateTodo | Back-END/todo-api/src/main/java/com/todo/api/service/TodoService.java:39-47 | On an existing id whose fields already equal the details, it returns the stored todo and writes nothing. Changed details that are invalid fail with `Rejected` and their violations. Valid changed details overwrite exactly title, description, completed and dueDate, keep id and createdAt, set `updatedAt` to now and replace only that row. A missing id fails with NotFound. Every failure leaves the store unchanged, and the store stays well formed. |
| TodoService.DeleteTodo | Back-END/todo-api/src/main/java/com/todo/api/service/TodoService.java:49-53 | An existing id is removed and nothing else changes; a missing id gives NotFound and the store is unchanged. The store stays well formed. |
| TodoService.ToggleTodoStatus | Back-END/todo-api/src/main/java/com/todo/api/service/TodoService.java:55-60 | On an existing valid todo, the flag is negated and `updatedAt` re-stamped, with every other field and row unchanged. A stored todo that breaks the validation rules fails with `Rejected`. A missing id gives NotFound. Every failure leaves the store unchanged. |
| TodoService.DeleteThenGet | Back-END/todo-api/src/main/java/com/todo/api/service/TodoService.java:49-53 | After a delete, fetching that id is NotFound and fetching any other id gives what it gave before. |
| TodoService.ToggleTwiceRestores | Back-END/todo-api/src/main/java/com/todo/api/service/TodoService.java:55-60 | Toggling a valid todo twice restores the row except `updatedAt`, which holds the second reading; an invalid one is refused both times and the store is unchanged. |
| TodoService.UpdateIsIdempotent | Back-END/todo-api/src/main/java/com/todo/api/service/TodoService.java:39-47 | Repeating an update with the same details returns the same todo and leaves the store as the first update left it. The row is no longer dirty, so `updatedAt` keeps the first stamp. A missing id gives the same NotFound both times. |
| TodoService.ToggleAdvancesUpdatedAt | Back-END/todo-api/src/main/java/com/todo/api/service/TodoService.java:58-59 | With a clock that has advanced, a toggle moves `updatedAt` strictly forward iff the stored todo is valid. |
| TodoService.UpdateKeepsStampsOrdered | Back-END/todo-api/src/main/java/com/todo/api/service/TodoService.java:39-47 | Update keeps `createdAt <= updatedAt` on every row when the clock is no earlier than the updated row's creation. |
| TodoService.ToggleKeepsStampsOrdered | Back-END/todo-api/src/main/java/com/todo/api/service/TodoService.java:55-60 | Toggle keeps `createdAt <= updatedAt` on every row when the clock is no earlier than the toggled row's creation. |
| TodoService.DeleteKeepsStampsOrdered | Back-END/todo-api/src/main/java/com/todo/api/service/TodoService.java:49-53 | Delete keeps `createdAt <= updatedAt` on every remaining row. |
| TodoService.CreateKeepsStampsOrdered | Back-END/todo-api/src/main/java/com/todo/api/service/TodoService.java:34-37 | On a store whose stamps are in order, create keeps them in order iff its two clock reads are in order or the body is refused. |
| TodoService.StatusFiltersPartition | Back-END/todo-api/src/main/java/com/todo/api/service/TodoService.java:26-28 | `getTodosByStatus(true)` and `getTodosByStatus(false)` together are exactly `getAllTodos`, as multisets. |
| TodoController.StatusOf | Back-END/todo-api/src/main/java/com/todo/api/controller/TodoController.java:48-53 | NotFound surfaces as 404, a body `@Valid` turns away as 400, and a row refused on save as 500; nothing else gets those codes. |
| TodoController.Respond | Back-END/todo-api/src/main/java/com/todo/api/controller/TodoController.java:54-57 | A successful result is sent with the endpoint's success code and the entity; a failure is sent with its own code and no entity. |
| TodoController.GetAllTodos | Back-END/todo-api/src/main/java/com/todo/api/controller/TodoController.java:39-41 | 200, with exactly the stored todos in ascending id order, as many as are stored. |
| TodoController.GetTodoById | Back-END/todo-api/src/main/java/com/todo/api/controller/TodoController.java:54-57 | 200 with the stored todo iff the id exists, otherwise 404 with no body. |
| TodoController.GetTodosByStatus | Back-END/todo-api/src/main/java/com/todo/api/controller/TodoController.java:69-73 | 200, with exactly the todos whose flag matches, in ascending id order, one entry per such row. |
| TodoController.SearchTodos | Back-END/todo-api/src/main/java/com/todo/api/controller/TodoController.java:85-88 | Through the service: 200, with exactly the todos whose title matches without case, in ascending id order, one entry per such row. |
| TodoController.CreateTodo | Back-END/todo-api/src/main/java/com/todo/api/controller/TodoController.java:101-106 | A body that fails validation gets 400 and the store is untouched. A valid body gets 201 with the stored entity: its fields are the body's, its id is the next counter value and was not in use, the counter moves past it, and only that row is added. |
| TodoController.UpdateTodo | Back-END/todo-api/src/main/java/com/todo/api/controller/TodoController.java:120-126 | An invalid body gets 400 even for a missing id, and a missing id gets 404; both leave the store unchanged. Otherwise the response is 200 with the merged entity, with id and createdAt kept. |
| TodoController.DeleteTodo | Back-END/todo-api/src/main/java/com/todo/api/controller/TodoController.java:138-142 | 204 with no body after removing exactly that id, or 404 with the store untouched. |
| TodoController.ToggleTodoStatus | Back-END/todo-api/src/main/java/com/todo/api/controller/TodoController.java:155-158 | 200 with the flipped entity, which replaces that row in the store; 404 for a missing id; 500 for a stored todo that fails validation. Both failures leave the store untouched. |
| TodoController.Run | Back-END/todo-api/src/main/java/com/todo/api/controller/TodoController.java:39-158 | Whatever the clock does, any request sequence leaves the store well formed and never lowers the id counter. |
| TodoController.IssuedId | Back-END/todo-api/src/main/java/com/todo/api/controller/TodoController.java:101-106 | A request hands out an id only when it is a create answered 201, and always when it is a create with a valid body; that id is the counter's value, and the counter moves past it. |
| TodoController.IssuedIds | Back-END/todo-api/src/main/java/com/todo/api/controller/TodoController.java:39-158 | Over any request sequence the ids the creates hand out strictly increase, lie between the counter before and after, and name no todo stored at the start, so no id is issued twice. |
| TodoController.HandlePreservesConsistent | Back-END/todo-api/src/main/java/com/todo/api/controller/TodoController.java:101-158 | Each request served with an in-order clock keeps the store well formed, its stamps in order and its todos valid, and no request on such a store ends in 500. |
| TodoController.RunPreservesConsistent | Back-END/todo-api/src/main/java/com/todo/api/controller/TodoController.java:39-158 | After any request sequence served with a clock that never runs backwards, every stored todo is valid and `createdAt <= updatedAt` holds. |
| TodoController.BuyMilkScenario | Back-END/todo-api/src/test/java/com/todo/api/integration/TodoIntegrationTest.java:43-93 | Follows the create, toggle, delete and get-after-delete steps of that test, with its own title and a toggle from open to done: create answers 201 with `completed` false, toggle answers 200 with it true, delete answers 204, and a later get answers 404. |
| Strings.ContainsIffOccurs | Back-END/todo-api/src/main/java/com/todo/api/repository/TodoRepository.java:12 | The substring scan succeeds iff the query occurs at some offset. |
| Strings.UpperAndLowerSearchAgree | Front-END/todo-app/src/components/TodoList.tsx:73 | Containment after upper-casing both sides holds iff it holds after lower-casing both sides. This links the server's `UPPER` match to the client's `toLowerCase`. |
| Strings.DecimalRoundTrip | Front-END/todo-app/src/services/TodoService.ts:13 | The decimal rendering of an id in a URL or message parses back to the same id. |
| Strings.DecimalInjective | Front-END/todo-app/src/services/TodoService.ts:13 | Distinct ids render to distinct path segments. |
| UriEncoding.Utf8RoundTrip | Front-END/todo-app/src/services/TodoService.ts:23 | Decoding the UTF-8 encoding of a string gives the string back. |
| UriEncoding.EncodeURIComponent | Front-END/todo-app/src/services/TodoService.ts:23 | The output has only unescaped characters and `%` followed by two uppercase hex digits. |
| UriEncoding.EncodedHasNoDelimiters | Front-END/todo-app/src/services/TodoService.ts:23 | The encoded title contains no space, `&`, `=`, `#`, `+`, `?` or `/`, so it cannot end or split the query parameter. |
| UriEncoding.EncodeRoundTrip | Front-END/todo-app/src/services/TodoService.ts:23 | Percent-decoding the encoded title recovers the title. |
| UriEncoding.EncodeInjective | Front-END/todo-app/src/services/TodoService.ts:23 | Distinct titles encode differently. |
| UriEncoding.EncodeConcat | Front-END/todo-app/src/services/TodoService.ts:23 | Encoding works character by character: the encoding of a concatenation is the concatenation of the encodings. |
| UriEncoding.EncodeUnescaped | Front-END/todo-app/src/services/TodoService.ts:23 | A title made only of unescaped characters is sent as it is. |
| UriEncoding.EncodeExample | Front-END/todo-app/src/__tests__/TodoService.test.ts:77-84 | "Test & Query" is encoded as "Test%20%26%20Query". |
| ClientService.TargetExamples | Front-END/todo-app/src/__tests__/TodoService.test.ts:25-131 | Listing targets exactly the base URL, and the completed filter targets `/status?completed=true` below it. For id 1: get targets `/1`, delete the same target with no body, and toggle is a PATCH of `/1/toggle` with no body. |
| ClientService.Build | Front-END/todo-app/src/services/TodoService.ts:7-44 | Every target starts with the base URL. Listing is a GET of exactly the base URL. Create is a POST of the base URL with the todo unchanged as body. Update is a PUT carrying the todo, and only create and update have a body. Search appends `/search?title=` and the encoded title. |
| ClientService.RouteOfBuild | Front-END/todo-app/src/services/TodoService.ts:7-44 | Reading any built request back, by method, path and body, gives exactly the call that built it. This covers `/{id}`, `/status?completed=true\|false`, `/search?title=` decoded, and `/{id}/toggle`. |
| ClientService.ItemPathFacts | Front-END/todo-app/src/services/TodoService.ts:13 | An item path is `/` then the id, reads back as that id, and cannot be mistaken for the status or search paths. |
| ClientService.BuildInjective | Front-END/todo-app/src/services/TodoService.ts:7-44 | Distinct calls issue distinct requests. |
| ClientService.SearchExample | Front-END/todo-app/src/__tests__/TodoService.test.ts:77-84 | Searching "Test & Query" targets `/search?title=Test%20%26%20Query` below the base URL, `http://localhost:8080/api/todos`. |
| TodoForm.NoDueDateRejectedAsWritten | Front-END/todo-app/src/components/TodoForm.tsx:21-22 | As written, the schema rejects every form whose due date is null. The intended schema then reduces to the title and description rules. |
| TodoForm.NewTodoWithoutDueDate | Front-END/todo-app/src/components/TodoForm.tsx:21-31 | A new todo with only a title typed in is rejected by the schema as written and accepted by the intended one. |
| TodoForm.WrittenSchemaIsStricter | Front-END/todo-app/src/components/TodoForm.tsx:15-23 | The intended schema accepts all the written one does. The two agree whenever a due date is given. |
| TodoForm.InitialValues | Front-END/todo-app/src/components/TodoForm.tsx:27-32 | With no todo, the form starts with `''`, `''`, `false` and `null`. Otherwise it copies title, completed and due date, and the description or `''` when absent. |
| TodoForm.Payload | Front-END/todo-app/src/components/TodoForm.tsx:34-38 | The submitted todo carries the form's title, description, completion and due date, and no id or timestamps. |
| TodoForm.UntouchedEditRoundTrip | Front-END/todo-app/src/components/TodoForm.tsx:27-38 | Submitting the initialValues the list passes for a todo sends back that todo's title, completion, due date and description; an absent description becomes `''`. |
| TodoForm.LayersDifferOnlyByBlankness | Front-END/todo-app/src/components/TodoForm.tsx:15-20 | The back end accepts a submitted form iff it passes the form's title and description rules and its title is not blank. |
| TodoForm.ServerRulesImplyFormRules | Back-END/todo-api/src/main/java/com/todo/api/model/Todo.java:25-30 | Any title and description the back end accepts also pass the form's title and description rules. |
| TodoForm.WhitespaceTitlePassesOnlyTheForm | Front-END/todo-app/src/components/TodoForm.tsx:16-18 | A one-space title passes the form but fails `@NotBlank`, so the converse fails. |
| TodoList.FilteredTodos | Front-END/todo-app/src/components/TodoList.tsx:65-77 | The shown list is an order-preserving sublist of the fetched todos. Each shown todo passes both filter and search, and each passing todo is shown as many times as it was fetched. |
| TodoList.AllWithEmptySearchShowsEverything | Front-END/todo-app/src/components/TodoList.tsx:66-72 | With filter `all` and an empty search, the shown list is the fetched list. |
| TodoList.ActiveAndCompletedPartitionAll | Front-END/todo-app/src/components/TodoList.tsx:66-69 | For any search, the `active` and `completed` views together make up the `all` view, as multisets and in length. |
| TodoList.SearchIgnoresQueryCase | Front-END/todo-app/src/components/TodoList.tsx:71-74 | Upper-casing the query does not change which todos match. |
| TodoList.ServerTitleMatchIsShown | Front-END/todo-app/src/components/TodoList.tsx:71-74 | Any todo the server's title search returns for a query also passes the list's search for it. |
| TodoList.HandleSubmit | Front-END/todo-app/src/components/TodoList.tsx:50-58 | A selected todo with a truthy id gives an update of that id, with the id written into the body. Otherwise submit gives a create of the payload. Either way the dialog closes and the selection is cleared. |
| TodoList.Step | Front-END/todo-app/src/components/TodoList.tsx:50-152 | Edit opens the dialog with that todo selected, Add clears the selection and opens it, and Close clears both; typing changes the form's values only while it is open. A submit while open whose values pass the setup's schema closes the dialog and sends an update iff the selected todo has a truthy id: under that id, with the form's payload and that id in the body; otherwise a create of the payload, with no id. Either request carries the form's title, description, completion and due date; a refused submit changes nothing. Toggle sends a toggle of that todo's id iff the id is truthy, and delete always sends a delete of its id. |
| TodoList.StepKeepsSelectionInvariant | Front-END/todo-app/src/components/TodoList.tsx:98-101 | Every action keeps the rule that a todo is selected only while the dialog is open. |
| TodoList.Run | Front-END/todo-app/src/components/TodoList.tsx:22-25 | Any sequence of actions from a state with no selection while closed keeps that rule. |
| TodoList.DialogShowsSelection | Front-END/todo-app/src/components/TodoList.tsx:154 | With a form that restarts on every opening, the initialValues the list passes are shown: after Edit the todo's values, after Add the empty form. |
| TodoList.OpeningKeepsEarlierValues | Front-END/todo-app/src/components/TodoForm.tsx:26-33 | As written, opening the dialog by Edit or Add leaves the form's values as they were, whichever todo is selected. |
| TodoList.EditAfterLoadShowsEmptyForm | Front-END/todo-app/src/components/TodoList.tsx:147-155 | As written, Edit right after the list loads shows the empty form instead of the todo, and saving it untouched sends nothing. |
| TodoList.UntouchedEditSavesThatTodo | Front-END/todo-app/src/components/TodoList.tsx:50-63 | As intended, saving an edited todo untouched sends an update of that todo under its id with its own title, completion and due date. |
| TodoList.EditThenSubmitUpdatesThatTodo | Front-END/todo-app/src/components/TodoList.tsx:50-63 | Under either setup, editing a todo with id `n`, typing values the schema accepts and submitting sends a PUT. The server reads it as an update of `n` whose body carries id `n`, and the dialog ends closed with no selection. |
| TodoList.AddThenSubmitCreates | Front-END/todo-app/src/components/TodoList.tsx:50-58 | Under either setup, adding, typing values the schema accepts and submitting sends a POST of the form's payload to the base URL, and the dialog ends closed. |
| TodoList.AddWithoutDueDateAsWritten | Front-END/todo-app/src/components/TodoForm.tsx:21-31 | As written, a new todo with no due date is never sent: the submit is turned away and the dialog stays open with the typed values. |
| TodoList.AddWithoutDueDateAsIntended | Front-END/todo-app/src/components/TodoList.tsx:50-58 | As intended, a new todo with no due date whose title and description pass is sent as a create of the form's payload. |

## Left out

- HTTP transport, axios, Spring MVC dispatch, JSON (de)serialisation and Swagger annotations are not modelled. Requests are modelled by method, target and body, and responses by status code and entity.
- JPA/Hibernate internals, `@Transactional` and database identity generation are replaced by a map and a counter. Concurrent requests are not modelled.
- The order of list results: without an `ORDER BY` the database may return rows in any order. The store returns them in ascending id order, and the list contracts state that order together with "all and only, each once".
- `LocalDateTime.now()` and `new Date()` are parameters. The text of ISO date strings and their conversion are abstracted to the instant they denote, so an empty `dueDate` string, which is falsy in `TodoForm`'s initial values, cannot arise.
- `encodeURIComponent` throws `URIError` on a lone UTF-16 surrogate. Strings here are sequences of Unicode scalar values, so that error path cannot arise and is not modelled.
- Case folding covers ASCII letters only. SQL `UPPER` and JavaScript `toLowerCase` agree only there.
- String lengths count characters. Both Java and JavaScript count UTF-16 code units, so titles with characters outside the Basic Multilingual Plane are longer for them than here.
- The clock is not assumed monotone. Every operation is defined on any well-formed store; `createdAt <= updatedAt` is a separate invariant, proved only for requests whose clock readings are in order.
- TodoController.StatusOf: the 404 for NotFound assumes a handler turning `EntityNotFoundException` into 404, as the endpoint documentation and the controller tests expect. No such handler is part of this model, and without one the exception would surface as a server error. The 500 for `Rejected` is Spring's default for an exception no handler catches. The exact exception, a `ConstraintViolationException` or one wrapping it at commit, is not modelled.
- TodoService.CreateTodo: the body is modelled without an id, as the client's type omits it. The source saves whatever the body holds, and a body carrying an id is not modelled.
- react-query caching and refetching after a mutation, MUI rendering, the theme in App.tsx, and TodoItem.tsx are left out. TodoItem's truthiness guard on the id for toggle appears in `TodoList.Step`; the same guard on delete is left out, and the list's delete handler is modelled as receiving the id.
- Formik's touched and error display, and the reset Formik would do on a changed `initialValues` under `enableReinitialize`, are not modelled. The intended setup restarts the form from the list's initialValues on every opening.
- Yup and Bean Validation themselves are not modelled; their rules are predicates. Yup's `required` is taken to reject only the empty string.
- Integer widths: the server's id is a Java `long`, and a path id outside its range is answered 400 by Spring's conversion. The client renders ids with JavaScript numbers, which lose precision above 2^53 and print in exponent form from 10^21. `Strings.Decimal`, `ClientService.ItemPath` and the store's counter use unbounded integers, so ids are taken to stay within those ranges.
- TodoList.Step: a submit while the dialog is closed cannot happen in the interface and is modelled as doing nothing.

## Findings

| source | as written | input that shows it | evidently intended | confidence | as-written member | corrected member |
|---|---|---|---|---|---|---|
| Front-END/todo-app/src/components/TodoForm.tsx:21-22 | `dueDate: Yup.date().min(new Date(), …)` is not `.nullable()`, and the form starts its due date at `null` (line 31). A null value fails the date type check. | A new todo with title "Buy milk" and no due date picked | The due date is optional: null passes, and a given date must not be in the past | medium, not executed | TodoList.AddWithoutDueDateAsWritten | TodoList.AddWithoutDueDateAsIntended |
| Front-END/todo-app/src/components/TodoForm.tsx:26-33 | `useFormik` is called without `enableReinitialize`, and `TodoForm` stays mounted inside the list (TodoList.tsx:147-155), so the form keeps the values from its first mount, which is the empty form with nothing selected. Changing the `initialValues` prop later has no effect. | Right after the list loads, click Edit on a todo titled "Buy milk" | The dialog opens on the selected todo's values, and Add opens on the empty form | medium, not executed | TodoList.EditAfterLoadShowsEmptyForm | TodoList.UntouchedEditSavesThatTodo |

=== FILE: client_service.dfy ===
/**
 * The HTTP client (Front-END services/TodoService.ts): each call is modelled by the
 * request it issues, a method, a target built by string concatenation, and a body.
 * `Route` reads a target back into the call it names; `RouteOfBuild` shows that no
 * two calls share a request.
 */
module ClientService {
  import opened Wrappers
  import opened ClientTodo
  import Strings
  import UriEncoding

  const ApiBaseUrl := "http://localhost:8080/api/todos"
  const StatusQuery := "/status?completed="
  const SearchQuery := "/search?title="
  const ToggleSuffix := "/toggle"

  datatype Method = Get | Post | Put | Delete | Patch

  datatype Request = Request(verb: Method, url: string, body: Option<Todo>)

  /** The eight calls the client can make, with their arguments. */
  datatype Call =
    | GetAllTodos
    | GetTodoById(id: int)
    | GetTodosByStatus(completed: bool)
    | SearchTodos(title: string)
    | CreateTodo(todo: Todo)
    | UpdateTodo(id: int, todo: Todo)
    | DeleteTodo(id: int)
    | ToggleTodoStatus(id: int)

  /** `/${id}`, the path of one todo under the base URL. */
  function ItemPath(id: int): string {
    "/" + Strings.Decimal(id)
  }

  /** `String(completed)`. */
  function BoolText(b: bool): string {
    if b then "true" else "false"
  }

  /** The path, below the base URL, each call targets. */
  function PathOf(c: Call): string {
    match c
    case GetAllTodos => ""
    case GetTodoById(id) => ItemPath(id)
    case GetTodosByStatus(b) => StatusQuery + BoolText(b)
    case SearchTodos(title) => SearchQuery + UriEncoding.EncodeURIComponent(title)
    case CreateTodo(_) => ""
    case UpdateTodo(id, _) => ItemPath(id)
    case DeleteTodo(id) => ItemPath(id)
    case ToggleTodoStatus(id) => ItemPath(id) + ToggleSuffix
  }

  /** The request each call issues. */
  function Build(c: Call): (r: Request)
    ensures Strings.IsPrefix(ApiBaseUrl, r.url)
    ensures r.body.Some? <==> c.CreateTodo? || c.UpdateTodo?
    ensures c.CreateTodo? ==> r == Request(Post, ApiBaseUrl, Some(c.todo))
    ensures c.UpdateTodo? ==> r.verb == Put && r.body == Some(c.todo)
    ensures c.GetAllTodos? ==> r == Request(Get, ApiBaseUrl, None)
    ensures c.SearchTodos? ==> r.url == ApiBaseUrl + SearchQuery + UriEncoding.EncodeURIComponent(c.title)
  {
    var url := ApiBaseUrl + PathOf(c);
    BaseThenPath(ApiBaseUrl, PathOf(c));
    match c
    case GetAllTodos => Request(Get, url, None)
    case GetTodoById(_) => Request(Get, url, None)
    case GetTodosByStatus(_) => Request(Get, url, None)
    case SearchTodos(_) => Request(Get, url, None)
    case CreateTodo(todo) => Request(Post, url, Some(todo))
    case UpdateTodo(_, todo) => Request(Put, url, Some(todo))
    case DeleteTodo(_) => Request(Delete, url, None)
    case ToggleTodoStatus(_) => Request(Patch, url, None)
  }

  /** A target is the base URL followed by its path, and the path can be cut back off. */
  lemma BaseThenPath(base: string, path: string)
    ensures Strings.IsPrefix(base, base + path)
    ensures (base + path)[|base|..] == path
  {
    assert (base + path)[..|base|] == base;
  }

  /** Reads an `/{id}` path segment. */
  function PathId(p: string): Option<int> {
    if |p| > 0 && p[0] == '/' then Strings.ParseDecimal(p[1..]) else None
  }

  /** The call a request stands for, read back from its method, path and body. */
  function RoutePath(verb: Method, p: string, body: Option<Todo>): Option<Call> {
    match verb
    case Get =>
      if p == [] then Some(GetAllTodos)
      else if Strings.IsPrefix(SearchQuery, p) then
        match UriEncoding.DecodeURIComponent(p[|SearchQuery|..])
        case Some(title) => Some(SearchTodos(title))
        case None => None
      else if p == StatusQuery + "true" then Some(GetTodosByStatus(true))
      else if p == StatusQuery + "false" then Some(GetTodosByStatus(false))
      else (match PathId(p) case Some(id) => Some(GetTodoById(id)) case None => None)
    case Post =>
      if p == [] && body.Some? then Some(CreateTodo(body.value)) else None
    case Put =>
      (match (PathId(p), body)
       case (Some(id), Some(todo)) => Some(UpdateTodo(id, todo))
       case _ => None)
    case Delete =>
      (match PathId(p) case Some(id) => Some(DeleteTodo(id)) case None => None)
    case Patch =>
      if |p| >= |ToggleSuffix| && p[|p| - |ToggleSuffix|..] == ToggleSuffix then
        (match PathId(p[..|p| - |ToggleSuffix|]) case Some(id) => Some(ToggleTodoStatus(id)) case None => None)
      else None
  }

  /** The call a request stands for, or `None` when its target is not under the base URL. */
  function Route(r: Request): Option<Call> {
    if Strings.IsPrefix(ApiBaseUrl, r.url) then RoutePath(r.verb, r.url[|ApiBaseUrl|..], r.body) else None
  }

  /** Every request the client builds reads back as the call that built it. */
  lemma RouteOfBuild(c: Call)
    ensures Route(Build(c)) == Some(c)
  {
    BaseThenPath(ApiBaseUrl, PathOf(c));
    RouteOfPath(c);
  }

  /** Every path the client builds reads back as the call that built it. */
  lemma RouteOfPath(c: Call)
    ensures RoutePath(Build(c).verb, PathOf(c), Build(c).body) == Some(c)
  {
    match c
    case GetAllTodos =>
    case GetTodoById(id) => RouteOfItem(Get, id, None);
    case GetTodosByStatus(b) => RouteOfStatus(b);
    case SearchTodos(title) => RouteOfSearch(title);
    case CreateTodo(todo) =>
    case UpdateTodo(id, todo) => RouteOfItem(Put, id, Some(todo));
    case DeleteTodo(id) => RouteOfItem(Delete, id, None);
    case ToggleTodoStatus(id) => RouteOfToggle(id);
  }

  lemma RouteOfItem(verb: Method, id: int, body: Option<Todo>)
    requires verb == Get || verb == Delete || (verb == Put && body.Some?)
    ensures verb == Get ==> RoutePath(verb, ItemPath(id), body) == Some(GetTodoById(id))
    ensures verb == Delete ==> RoutePath(verb, ItemPath(id), body) == Some(DeleteTodo(id))
    ensures verb == Put ==> RoutePath(verb, ItemPath(id), body) == Some(UpdateTodo(id, body.value))
  {
    ItemPathFacts(id);
  }

  lemma RouteOfStatus(b: bool)
    ensures RoutePath(Get, StatusQuery + BoolText(b), None) == Some(GetTodosByStatus(b))
  {
    StatusPathFacts(b);
  }

  lemma RouteOfSearch(title: string)
    ensures RoutePath(Get, SearchQuery + UriEncoding.EncodeURIComponent(title), None) == Some(SearchTodos(title))
  {
    SearchPathFacts(title);
  }

  lemma RouteOfToggle(id: int)
    ensures RoutePath(Patch, ItemPath(id) + ToggleSuffix, None) == Some(ToggleTodoStatus(id))
  {
    TogglePathFacts(id);
  }

  /** A status path is not empty and not a search; it reads back as its flag. */
  lemma StatusPathFacts(b: bool)
    ensures var p := StatusQuery + BoolText(b);
      && p != [] && !Strings.IsPrefix(SearchQuery, p)
      && (p == StatusQuery + "true" <==> b)
      && (p == StatusQuery + "false" <==> !b)
  {
    var p := StatusQuery + BoolText(b);
    assert p[2] == 't' && SearchQuery[2] == 'e';
    if b {
      assert p[|StatusQuery|] == 't' && (StatusQuery + "false")[|StatusQuery|] == 'f';
    } else {
      assert p[|StatusQuery|] == 'f' && (StatusQuery + "true")[|StatusQuery|] == 't';
    }
  }

  /** A search path reads back as the title it encodes. */
  lemma SearchPathFacts(title: string)
    ensures var p := SearchQuery + UriEncoding.EncodeURIComponent(title);
      && p != [] && Strings.IsPrefix(SearchQuery, p)
      && UriEncoding.DecodeURIComponent(p[|SearchQuery|..]) == Some(title)
  {
    BaseThenPath(SearchQuery, UriEncoding.EncodeURIComponent(title));
    UriEncoding.EncodeRoundTrip(title);
  }

  /** A toggle path ends in `/toggle` after the item path of its id. */
  lemma TogglePathFacts(id: int)
    ensures var p := ItemPath(id) + ToggleSuffix;
      && |p| >= |ToggleSuffix|
      && p[|p| - |ToggleSuffix|..] == ToggleSuffix
      && PathId(p[..|p| - |ToggleSuffix|]) == Some(id)
  {
    var p := ItemPath(id) + ToggleSuffix;
    ItemPathFacts(id);
    assert p[..|p| - |ToggleSuffix|] == ItemPath(id);
    assert p[|p| - |ToggleSuffix|..] == ToggleSuffix;
  }

  /** An item path reads back as its id and is neither empty nor a query. */
  lemma ItemPathFacts(id: int)
    ensures PathId(ItemPath(id)) == Some(id)
    ensures ItemPath(id) != []
    ensures !Strings.IsPrefix(SearchQuery, ItemPath(id))
    ensures ItemPath(id) != StatusQuery + "true" && ItemPath(id) != StatusQuery + "false"
  {
    var p := ItemPath(id);
    assert p[1..] == Strings.Decimal(id);
    Strings.DecimalRoundTrip(id);
    Strings.DecimalStart(id);
    ItemPathNotQuery(p, Strings.Decimal(id));
  }

  /** A path whose second character starts a decimal number is neither a search nor a status query. */
  lemma ItemPathNotQuery(p: string, digits: string)
    requires p == "/" + digits && |digits| >= 1
    requires Strings.IsDigit(digits[0]) || digits[0] == '-'
    ensures !Strings.IsPrefix(SearchQuery, p)
    ensures p != StatusQuery + "true" && p != StatusQuery + "false"
  {
    assert p[1] == digits[0];
    assert SearchQuery[1] == 's';
    assert (StatusQuery + "true")[1] == 's' && (StatusQuery + "false")[1] == 's';
  }

  /** Distinct calls issue distinct requests. */
  lemma BuildInjective(a: Call, b: Call)
    ensures Build(a) == Build(b) ==> a == b
  {
    RouteOfBuild(a);
    RouteOfBuild(b);
  }

  /** The targets the client's tests expect for listing, the completed filter and id 1. */
  lemma TargetExamples()
    ensures Build(GetAllTodos).url == ApiBaseUrl
    ensures Build(GetTodosByStatus(true)).url == ApiBaseUrl + "/status?completed=true"
    ensures Build(GetTodoById(1)) == Request(Get, ApiBaseUrl + "/1", None)
    ensures Build(DeleteTodo(1)) == Request(Delete, ApiBaseUrl + "/1", None)
    ensures Build(ToggleTodoStatus(1)) == Request(Patch, ApiBaseUrl + "/1/toggle", None)
  {
    assert ItemPath(1) == "/1" by {
      assert Strings.Decimal(1) == "1";
    }
    assert ItemPath(1) + ToggleSuffix == "/1/toggle";
  }

  /** The search target the client's tests expect for a title holding spaces and an ampersand. */
  lemma SearchExample(title: string)
    requires title == "Test & Query"
    ensures Build(SearchTodos(title)).url == ApiBaseUrl + "/search?title=Test%20%26%20Query"
  {
    UriEncoding.EncodeExample(title);
    SearchTarget(UriEncoding.EncodeURIComponent(title));
  }

  lemma SearchTarget(e: string)
    requires e == "Test%20%26%20Query"
    ensures ApiBaseUrl + SearchQuery + e == ApiBaseUrl + "/search?title=Test%20%26%20Query"
  {
    assert SearchQuery + e == "/search?title=Test%20%26%20Query";
    assert ApiBaseUrl + SearchQuery + e == ApiBaseUrl + (SearchQuery + e);
  }
}

=== FILE: client_todo.dfy ===
/**
 * The front end's `Todo` interface (Front-END types/Todo.ts). Dates travel as ISO
 * strings; the model holds the instant each string denotes.
 */
module ClientTodo {
  import opened Wrappers
  import opened Clock

  datatype Todo = Todo(
    id: Option<int>,
    title: string,
    description: Option<string>,
    completed: bool,
    dueDate: Option<Time>,
    createdAt: Option<Time>,
    updatedAt: Option<Time>)

  /** JavaScript truthiness of the optional numeric id: both `undefined` and `0` are falsy. */
  predicate HasId(t: Todo) {
    t.id.Some? && t.id.value != 0
  }
}

=== FILE: strings.dfy ===
/**
 * String helpers the todo application relies on through its platforms:
 * substring search (`String.includes`, SQL `LIKE '%q%'`), ASCII case folding
 * (`toLowerCase`, SQL `UPPER`), Java's `String.trim` notion of blankness, and
 * the decimal rendering of integers (`Long.toString`, template literals).
 */
module Strings {
  import opened Wrappers

  /** True iff `p` is a prefix of `s`. */
  predicate IsPrefix(p: string, s: string) {
    |p| <= |s| && s[..|p|] == p
  }

  /** Substring search, scanning each start position in turn. */
  predicate Contains(s: string, q: string)
    decreases |s|
  {
    IsPrefix(q, s) || (|s| > 0 && Contains(s[1..], q))
  }

  /** `q` occurs in `s` starting at offset `i`. */
  ghost predicate OccursAt(s: string, q: string, i: int) {
    0 <= i && i + |q| <= |s| && s[i..i + |q|] == q
  }

  /** The scan finds `q` exactly when `q` occurs at some offset of `s`. */
  lemma {:induction false} ContainsIffOccurs(s: string, q: string)
    ensures Contains(s, q) <==> exists i :: OccursAt(s, q, i)
    decreases |s|
  {
    if IsPrefix(q, s) {
      assert OccursAt(s, q, 0);
    } else if |s| > 0 {
      ContainsIffOccurs(s[1..], q);
      if Contains(s[1..], q) {
        var j :| OccursAt(s[1..], q, j);
        assert s[1..][j..j + |q|] == s[j + 1..j + 1 + |q|];
        assert OccursAt(s, q, j + 1);
      } else {
        forall i | OccursAt(s, q, i)
          ensures false
        {
          assert i != 0;
          assert s[1..][i - 1..i - 1 + |q|] == s[i..i + |q|];
          assert OccursAt(s[1..], q, i - 1);
        }
      }
    } else {
      assert |q| > 0;
    }
  }

  // ---------------------------------------------------------------------------
  // ASCII case folding
  // ---------------------------------------------------------------------------

  predicate IsAsciiLower(c: char) { 'a' <= c <= 'z' }
  predicate IsAsciiUpper(c: char) { 'A' <= c <= 'Z' }

  /** Upper-cases an ASCII letter; every other character is left alone. */
  function UpperChar(c: char): (r: char)
    ensures IsAsciiLower(c) ==> IsAsciiUpper(r) && r as int == c as int - 32
    ensures !IsAsciiLower(c) ==> r == c
  {
    if IsAsciiLower(c) then (c as int - 32) as char else c
  }

  /** Lower-cases an ASCII letter; every other character is left alone. */
  function LowerChar(c: char): (r: char)
    ensures IsAsciiUpper(c) ==> IsAsciiLower(r) && r as int == c as int + 32
    ensures !IsAsciiUpper(c) ==> r == c
  {
    if IsAsciiUpper(c) then (c as int + 32) as char else c
  }

  function Upper(s: string): (r: string)
    ensures |r| == |s|
    ensures forall i :: 0 <= i < |s| ==> r[i] == UpperChar(s[i])
  {
    seq(|s|, i requires 0 <= i < |s| => UpperChar(s[i]))
  }

  function Lower(s: string): (r: string)
    ensures |r| == |s|
    ensures forall i :: 0 <= i < |s| ==> r[i] == LowerChar(s[i])
  {
    seq(|s|, i requires 0 <= i < |s| => LowerChar(s[i]))
  }

  /** Two characters are equal after upper-casing exactly when they are equal after lower-casing. */
  lemma FoldingsAgree(a: char, b: char)
    ensures UpperChar(a) == UpperChar(b) <==> LowerChar(a) == LowerChar(b)
  {
  }

  /**
   * Case-insensitive substring search gives the same answer whether both sides are
   * upper-cased (the SQL `UPPER(title) LIKE UPPER(?)` of the back end) or lower-cased
   * (the `toLowerCase().includes` of the front end).
   */
  lemma {:induction false} UpperAndLowerSearchAgree(s: string, q: string)
    ensures Contains(Upper(s), Upper(q)) <==> Contains(Lower(s), Lower(q))
    decreases |s|
  {
    assert IsPrefix(Upper(q), Upper(s)) <==> IsPrefix(Lower(q), Lower(s)) by {
      if |q| <= |s| {
        forall i | 0 <= i < |q|
          ensures Upper(s)[i] == Upper(q)[i] <==> Lower(s)[i] == Lower(q)[i]
        {
          FoldingsAgree(s[i], q[i]);
        }
        assert Upper(s)[..|q|] == Upper(q) <==> forall i :: 0 <= i < |q| ==> Upper(s)[i] == Upper(q)[i];
        assert Lower(s)[..|q|] == Lower(q) <==> forall i :: 0 <= i < |q| ==> Lower(s)[i] == Lower(q)[i];
      }
    }
    if |s| > 0 {
      assert Upper(s)[1..] == Upper(s[1..]);
      assert Lower(s)[1..] == Lower(s[1..]);
      UpperAndLowerSearchAgree(s[1..], q);
    }
  }

  // ---------------------------------------------------------------------------
  // Blankness, as Java's String.trim() sees it
  // ---------------------------------------------------------------------------

  /** `String.trim()` strips every character at or below U+0020. */
  predicate IsTrimmable(c: char) { c <= ' ' }

  /** A string is blank when trimming leaves nothing. */
  predicate IsBlank(s: string) {
    forall i :: 0 <= i < |s| ==> IsTrimmable(s[i])
  }

  // ---------------------------------------------------------------------------
  // Decimal rendering and parsing of integers
  // ---------------------------------------------------------------------------

  predicate IsDigit(c: char) { '0' <= c <= '9' }

  function DigitChar(d: nat): (c: char)
    requires d < 10
    ensures IsDigit(c) && c as int - '0' as int == d
  {
    ('0' as int + d) as char
  }

  /** The shortest decimal rendering of a natural number. */
  function Digits(n: nat): (r: string)
    ensures |r| >= 1
    ensures forall i :: 0 <= i < |r| ==> IsDigit(r[i])
    ensures |r| > 1 ==> r[0] != '0'
    decreases n
  {
    if n < 10 then [DigitChar(n)] else Digits(n / 10) + [DigitChar(n % 10)]
  }

  /** `Long.toString` / JavaScript `String(n)` for an integer. */
  function Decimal(n: int): (r: string)
    ensures |r| >= 1
  {
    if n < 0 then "-" + Digits(-n) else Digits(n)
  }

  /** A rendered integer starts with a digit or a minus sign. */
  lemma DecimalStart(n: int)
    ensures IsDigit(Decimal(n)[0]) || Decimal(n)[0] == '-'
  {
  }

  /** Reads a non-empty run of decimal digits; anything else is rejected. */
  function ParseDigits(s: string): (r: Option<nat>)
    ensures r.Some? <==> |s| >= 1 && forall i :: 0 <= i < |s| ==> IsDigit(s[i])
    decreases |s|
  {
    if |s| == 0 || !IsDigit(s[|s| - 1]) then None
    else
      var d := s[|s| - 1] as int - '0' as int;
      if |s| == 1 then Some(d)
      else match ParseDigits(s[..|s| - 1])
        case None => None
        case Some(v) => Some(10 * v + d)
  }

  /**
   * Reads back what `Decimal` writes: an optional leading `-` and a run of ASCII
   * digits. Unlike `Long.parseLong` it takes no leading `+` and no other digit sets.
   */
  function ParseDecimal(s: string): Option<int> {
    if |s| > 0 && s[0] == '-' then
      match ParseDigits(s[1..])
      case None => None
      case Some(v) => Some(-(v as int))
    else
      match ParseDigits(s)
      case None => None
      case Some(v) => Some(v)
  }

  lemma {:induction false} DigitsRoundTrip(n: nat)
    ensures ParseDigits(Digits(n)) == Some(n)
    decreases n
  {
    if n >= 10 {
      var r := Digits(n);
      DigitsRoundTrip(n / 10);
      assert r[..|r| - 1] == Digits(n / 10);
    }
  }

  /** Parsing a rendered integer gives it back. */
  lemma DecimalRoundTrip(n: int)
    ensures ParseDecimal(Decimal(n)) == Some(n)
  {
    if n < 0 {
      NegativeRoundTrip(n);
    } else {
      DigitsRoundTrip(n);
      assert Decimal(n)[0] != '-';
    }
  }

  lemma NegativeRoundTrip(n: int)
    requires n < 0
    ensures ParseDecimal(Decimal(n)) == Some(n)
  {
    var m: nat := -n;
    var d := Digits(m);
    assert Decimal(n) == "-" + d;
    DigitsRoundTrip(m);
    assert ParseDigits(d) == Some(m);
    SignThenDigits(d);
    assert -(m as int) == n;
  }

  /** A minus sign in front of a digit run negates what the digits read as. */
  lemma SignThenDigits(d: string)
    requires ParseDigits(d).Some?
    ensures ParseDecimal("-" + d) == Some(-(ParseDigits(d).value as int))
  {
    assert ("-" + d)[1..] == d;
  }

  /** Distinct integers render to distinct strings. */
  lemma DecimalInjective(a: int, b: int)
    ensures Decimal(a) == Decimal(b) ==> a == b
  {
    DecimalRoundTrip(a);
    DecimalRoundTrip(b);
  }
}

=== FILE: todo_controller.dfy ===
/**
 * The HTTP surface (Back-END controller/TodoController.java): each endpoint runs body
 * validation where `@Valid` asks for it, calls the service, and maps the outcome to a
 * status code.
 */
module TodoController {
  import opened Wrappers
  import opened Clock
  import opened TodoEntity
  import opened TodoRepository
  import opened TodoService

  const StatusOk := 200
  const StatusCreated := 201
  const StatusNoContent := 204
  const StatusBadRequest := 400
  const StatusNotFound := 404
  const StatusServerError := 500

  /** A response: the status code and, on success, the entity in the body. */
  datatype Response<T> = Response(status: int, body: Option<T>)

  /** The store after a request, and the response sent back. */
  datatype Exchange<T> = Exchange(store: Store, response: Response<T>)

  /**
   * The status a failure surfaces as: 404 for a missing id, 400 for a body `@Valid`
   * turns away, and 500 for a row refused on save, which no handler catches.
   */
  function StatusOf(f: Failure): (code: int)
    ensures f.NotFound? <==> code == StatusNotFound
    ensures f.Invalid? <==> code == StatusBadRequest
    ensures f.Rejected? <==> code == StatusServerError
  {
    match f
    case NotFound(_) => StatusNotFound
    case Invalid(_) => StatusBadRequest
    case Rejected(_) => StatusServerError
  }

  /** A service result as a response: `success` with the entity, or the failure's status and no entity. */
  function Respond<T>(r: Result<T, Failure>, success: int): (resp: Response<T>)
    requires success !in {StatusBadRequest, StatusNotFound, StatusServerError}
    ensures r.Ok? <==> resp.status == success
    ensures r.Ok? ==> resp.body == Some(r.value)
    ensures r.Err? ==> resp == Response(StatusOf(r.error), None)
  {
    match r
    case Ok(v) => Response(success, Some(v))
    case Err(f) => Response(StatusOf(f), None)
  }

  /** `GET /api/todos`: 200 with the service's list as it is. */
  function GetAllTodos(s: Store): (resp: Response<seq<Todo>>)
    requires Wf(s)
    ensures resp.status == StatusOk && resp.body.Some?
    ensures forall t :: t in resp.body.value <==> t in s.rows.Values
    ensures IdsAscending(resp.body.value) && |resp.body.value| == |s.rows|
  {
    Response(StatusOk, Some(TodoService.GetAllTodos(s)))
  }

  /** `GET /api/todos/{id}`: 200 with the todo, or 404 when there is none. */
  function GetTodoById(s: Store, id: int): (resp: Response<Todo>)
    ensures id in s.rows <==> resp.status == StatusOk
    ensures id in s.rows ==> resp.body == Some(s.rows[id])
    ensures id !in s.rows ==> resp == Response(StatusNotFound, None)
  {
    Respond(TodoService.GetTodoById(s, id), StatusOk)
  }

  /** `GET /api/todos/status?completed=`: 200 with the filtered list. */
  function GetTodosByStatus(s: Store, completed: bool): (resp: Response<seq<Todo>>)
    requires Wf(s)
    ensures resp.status == StatusOk && resp.body.Some?
    ensures forall t :: t in resp.body.value <==> t in s.rows.Values && t.completed == completed
    ensures IdsAscending(resp.body.value)
    ensures |resp.body.value| == |set k | k in s.rows && s.rows[k].completed == completed|
  {
    Response(StatusOk, Some(TodoService.GetTodosByStatus(s, completed)))
  }

  /** `GET /api/todos/search?title=`: 200 with the matching list. */
  function SearchTodos(s: Store, title: string): (resp: Response<seq<Todo>>)
    requires Wf(s)
    ensures resp.status == StatusOk && resp.body.Some?
    ensures forall t :: t in resp.body.value <==> t in s.rows.Values && TitleMatches(t, title)
    ensures IdsAscending(resp.body.value)
    ensures |resp.body.value| == |set k | k in s.rows && TitleMatches(s.rows[k], title)|
  {
    LowerCaseTitleMatch(title);
    Response(StatusOk, Some(TodoService.SearchTodos(s, title)))
  }

  /**
   * `POST /api/todos`: a body that breaks a validation rule is answered 400 before the
   * service is reached, so the store is untouched; a valid one is saved and answered
   * 201 with the stored entity, carrying its fresh id and timestamps.
   */
  function CreateTodo(s: Store, body: Body, first: Time, second: Time): (x: Exchange<Todo>)
    requires Wf(s)
    ensures !Valid(Bind(body)) <==> x.response.status == StatusBadRequest
    ensures !Valid(Bind(body)) ==> x == Exchange(s, Response(StatusBadRequest, None))
    ensures Valid(Bind(body)) ==>
      && x.response.status == StatusCreated
      && x.response.body.Some?
      && x.response.body.value.id !in s.rows
      && x.response.body.value.id == s.nextId && x.store.nextId > s.nextId
      && DraftOf(x.response.body.value) == Bind(body)
      && x.store.rows == s.rows[x.response.body.value.id := x.response.body.value]
  {
    var d := Bind(body);
    if Violations(d) != {} then Exchange(s, Respond(Err(Invalid(Violations(d))), StatusCreated))
    else
      var reply := TodoService.CreateTodo(s, d, first, second);
      Exchange(reply.store, Respond(reply.result, StatusCreated))
  }

  /**
   * `PUT /api/todos/{id}`: validation comes first, so an invalid body is 400 even for a
   * missing id; then 404 for a missing id, else 200 with the merged entity.
   */
  function UpdateTodo(s: Store, id: int, body: Body, now: Time): (x: Exchange<Todo>)
    requires Wf(s)
    ensures !Valid(Bind(body)) ==> x == Exchange(s, Response(StatusBadRequest, None))
    ensures Valid(Bind(body)) && id !in s.rows ==> x == Exchange(s, Response(StatusNotFound, None))
    ensures Valid(Bind(body)) && id in s.rows ==>
      && x.response.status == StatusOk
      && x.response.body.Some?
      && x.response.body.value.id == id
      && DraftOf(x.response.body.value) == Bind(body)
      && x.response.body.value.createdAt == s.rows[id].createdAt
      && x.store.rows == s.rows[id := x.response.body.value]
  {
    var d := Bind(body);
    if Violations(d) != {} then Exchange(s, Respond(Err(Invalid(Violations(d))), StatusOk))
    else
      var reply := TodoService.UpdateTodo(s, id, d, now);
      Exchange(reply.store, Respond(reply.result, StatusOk))
  }

  /** `DELETE /api/todos/{id}`: 204 with no body, or 404 with the store untouched. */
  function DeleteTodo(s: Store, id: int): (x: Exchange<()>)
    requires Wf(s)
    ensures id in s.rows ==> x == Exchange(Store(s.rows - {id}, s.nextId), Response(StatusNoContent, None))
    ensures id !in s.rows ==> x == Exchange(s, Response(StatusNotFound, None))
  {
    var reply := TodoService.DeleteTodo(s, id);
    match reply.result
    case Ok(_) => Exchange(reply.store, Response(StatusNoContent, None))
    case Err(f) => Exchange(reply.store, Response(StatusOf(f), None))
  }

  /**
   * `PATCH /api/todos/{id}/toggle`: 200 with the flipped entity, or 404 with the store
   * untouched. A stored row that breaks the validation rules cannot be saved back, and
   * the request fails with 500, the store untouched.
   */
  function ToggleTodoStatus(s: Store, id: int, now: Time): (x: Exchange<Todo>)
    requires Wf(s)
    ensures id !in s.rows ==> x == Exchange(s, Response(StatusNotFound, None))
    ensures id in s.rows && !Valid(DraftOf(s.rows[id])) ==> x == Exchange(s, Response(StatusServerError, None))
    ensures id in s.rows && Valid(DraftOf(s.rows[id])) ==>
      && x.response.status == StatusOk
      && x.response.body == Some(s.rows[id].(completed := !s.rows[id].completed, updatedAt := now))
      && x.store.rows == s.rows[id := x.response.body.value]
  {
    var reply := TodoService.ToggleTodoStatus(s, id, now);
    Exchange(reply.store, Respond(reply.result, StatusOk))
  }

  // ---------------------------------------------------------------------------
  // Request sequences
  // ---------------------------------------------------------------------------

  /** One request to the API, with the clock readings its hooks will take. */
  datatype Call =
    | ListAll
    | GetOne(id: int)
    | ListByStatus(completed: bool)
    | Search(title: string)
    | Create(body: Body, first: Time, second: Time)
    | Update(id: int, body: Body, now: Time)
    | Remove(id: int)
    | Toggle(id: int, now: Time)

  /** Serves one request: the store afterwards and the status code answered. */
  function Handle(s: Store, c: Call): (r: (Store, int))
    requires Wf(s)
    ensures Wf(r.0) && r.0.nextId >= s.nextId
  {
    match c
    case ListAll => (s, GetAllTodos(s).status)
    case GetOne(id) => (s, GetTodoById(s, id).status)
    case ListByStatus(b) => (s, GetTodosByStatus(s, b).status)
    case Search(q) => (s, SearchTodos(s, q).status)
    case Create(body, first, second) =>
      var x := CreateTodo(s, body, first, second); (x.store, x.response.status)
    case Update(id, body, now) =>
      var x := UpdateTodo(s, id, body, now); (x.store, x.response.status)
    case Remove(id) =>
      var x := DeleteTodo(s, id); (x.store, x.response.status)
    case Toggle(id, now) =>
      var x := ToggleTodoStatus(s, id, now); (x.store, x.response.status)
  }

  /**
   * The state every request reached through this API leaves behind, given a clock that
   * does not run backwards: well formed, stamps in order, and only valid todos.
   */
  predicate Consistent(s: Store) {
    Wf(s) && StampsOrdered(s) && forall k :: k in s.rows ==> Valid(DraftOf(s.rows[k]))
  }

  /**
   * The request's clock readings are in order: a create's two reads are in order, and
   * an update or toggle reads no earlier than any stored creation time.
   */
  predicate ClockOk(s: Store, c: Call) {
    match c
    case Create(_, first, second) => first <= second
    case Update(_, _, now) => ClockAfter(s, now)
    case Toggle(_, now) => ClockAfter(s, now)
    case _ => true
  }

  /** A request sequence served with a clock that never runs backwards. */
  predicate Timely(s: Store, calls: seq<Call>)
    decreases |calls|
  {
    Wf(s) && (|calls| > 0 ==> ClockOk(s, calls[0]) && Timely(Handle(s, calls[0]).0, calls[1..]))
  }

  /**
   * Serves a sequence of requests in order. Whatever the clock does, the store stays
   * well formed and `nextId` never goes down, so no id is handed out twice.
   */
  function Run(s: Store, calls: seq<Call>): (r: Store)
    requires Wf(s)
    ensures Wf(r) && r.nextId >= s.nextId
    decreases |calls|
  {
    if |calls| == 0 then s else Run(Handle(s, calls[0]).0, calls[1..])
  }

  /** The id a request hands out: the new todo's id when it is a create answered 201. */
  function IssuedId(s: Store, c: Call): (r: Option<int>)
    requires Wf(s)
    ensures r.Some? ==> c.Create? && r.value == s.nextId && Handle(s, c).0.nextId > r.value
    ensures c.Create? && Valid(Bind(c.body)) ==> r.Some?
  {
    match c
    case Create(body, first, second) =>
      var x := CreateTodo(s, body, first, second);
      if x.response.status == StatusCreated then Some(x.response.body.value.id) else None
    case _ => None
  }

  /**
   * The ids the creates of a request sequence hand out, in order. They strictly
   * increase and lie between the counters before and after, so no id is issued twice
   * and none names a todo stored at the start.
   */
  function IssuedIds(s: Store, calls: seq<Call>): (r: seq<int>)
    requires Wf(s)
    ensures forall i, j :: 0 <= i < j < |r| ==> r[i] < r[j]
    ensures forall i :: 0 <= i < |r| ==> s.nextId <= r[i] < Run(s, calls).nextId
    ensures forall i :: 0 <= i < |r| ==> r[i] !in s.rows
    decreases |calls|
  {
    if |calls| == 0 then []
    else
      var here := IssuedId(s, calls[0]);
      var rest := IssuedIds(Handle(s, calls[0]).0, calls[1..]);
      if here.Some? then [here.value] + rest else rest
  }

  /**
   * One request served with an in-order clock keeps the store consistent. Since every
   * stored row is valid and `@Valid` screens every body, the save-time validation never
   * refuses a row, so no request ends in 500.
   */
  lemma HandlePreservesConsistent(s: Store, c: Call)
    requires Consistent(s) && ClockOk(s, c)
    ensures Consistent(Handle(s, c).0)
    ensures Handle(s, c).1 != StatusServerError
  {
    match c
    case Create(body, first, second) =>
      CreateKeepsStampsOrdered(s, Bind(body), first, second);
    case Update(id, body, now) =>
      UpdateKeepsStampsOrdered(s, id, Bind(body), now);
    case Remove(id) =>
      DeleteKeepsStampsOrdered(s, id);
    case Toggle(id, now) =>
      ToggleKeepsStampsOrdered(s, id, now);
      if id in s.rows {
        assert DraftOf(Handle(s, c).0.rows[id]) == DraftOf(s.rows[id]).(completed := !s.rows[id].completed);
      }
    case _ =>
  }

  /**
   * After any sequence of requests served with a monotone clock, every stored todo
   * still has a non-blank title within bounds and `createdAt <= updatedAt`.
   */
  lemma {:induction false} RunPreservesConsistent(s: Store, calls: seq<Call>)
    requires Consistent(s) && Timely(s, calls)
    ensures Consistent(Run(s, calls))
    decreases |calls|
  {
    if |calls| > 0 {
      HandlePreservesConsistent(s, calls[0]);
      RunPreservesConsistent(Handle(s, calls[0]).0, calls[1..]);
    }
  }

  /**
   * The end-to-end scenario: create "Buy milk" (201, not completed), toggle it (200,
   * completed), delete it (204), and a later fetch is 404.
   */
  lemma BuyMilkScenario(s: Store, t0: Time, t1: Time, t2: Time)
    requires Wf(s)
    ensures
      var created := CreateTodo(s, Body(Some("Buy milk"), None, None, None), t0, t1);
      && created.response.status == StatusCreated
      && !created.response.body.value.completed
      && var id := created.response.body.value.id;
      var toggled := ToggleTodoStatus(created.store, id, t2);
      && toggled.response.status == StatusOk
      && toggled.response.body.value.completed
      && var deleted := DeleteTodo(toggled.store, id);
      && deleted.response.status == StatusNoContent
      && GetTodoById(deleted.store, id).status == StatusNotFound
  {
    var body := Body(Some("Buy milk"), None, None, None);
    assert !Strings.IsBlank("Buy milk") by { assert "Buy milk"[0] == 'B'; }
    assert Valid(Bind(body));
    var created := CreateTodo(s, body, t0, t1);
    var id := created.response.body.value.id;
    var toggled := ToggleTodoStatus(created.store, id, t2);
  }
}

=== FILE: todo_entity.dfy ===
/**
 * The persisted todo (Back-END model/Todo.java): its fields, the Bean Validation
 * rules on them as an explicit validity predicate, and the `@PrePersist` /
 * `@PreUpdate` timestamp hooks with the clock passed in.
 */
module TodoEntity {
  import opened Wrappers
  import opened Clock
  import Strings

  const TitleMaxLength := 100
  const DescriptionMaxLength := 500

  /** A stored todo. The store assigns `id`; the hooks stamp `createdAt` and `updatedAt`. */
  datatype Todo = Todo(
    id: int,
    title: Option<string>,
    description: Option<string>,
    completed: bool,
    dueDate: Option<Time>,
    createdAt: Time,
    updatedAt: Time)

  /**
   * The client-controlled fields of a todo, as they arrive in a create or update
   * request body once bound. Update copies only these four fields. A create body is
   * modelled without an id: `save` would merge a body that carries one.
   */
  datatype Draft = Draft(
    title: Option<string>,
    description: Option<string>,
    completed: bool,
    dueDate: Option<Time>)

  /** A JSON request body: every field may be missing. */
  datatype Body = Body(
    title: Option<string>,
    description: Option<string>,
    completed: Option<bool>,
    dueDate: Option<Time>)

  /**
   * Binding a body onto a fresh `Todo`: absent fields stay null, and the primitive
   * `completed` keeps its default `false` when the body does not supply it.
   */
  function Bind(b: Body): (d: Draft)
    ensures d.completed <==> b.completed == Some(true)
    ensures b.completed.None? ==> !d.completed
    ensures d.title == b.title && d.description == b.description && d.dueDate == b.dueDate
  {
    Draft(b.title, b.description, b.completed.GetOr(false), b.dueDate)
  }

  /** The client-controlled fields of a stored todo. */
  function DraftOf(t: Todo): Draft {
    Draft(t.title, t.description, t.completed, t.dueDate)
  }

  // ---------------------------------------------------------------------------
  // Validation
  // ---------------------------------------------------------------------------

  /** The rules of `@NotBlank @Size(max = 100)` on title and `@Size(max = 500)` on description. */
  predicate Valid(d: Draft) {
    && d.title.Some?
    && !Strings.IsBlank(d.title.value)
    && |d.title.value| <= TitleMaxLength
    && (d.description.None? || |d.description.value| <= DescriptionMaxLength)
  }

  /** A constraint violation: the offending field and the annotation's message. */
  datatype Violation = Violation(field: string, message: string)

  const TitleRequired := Violation("title", "Title is required")
  const TitleTooLong := Violation("title", "Title cannot exceed 100 characters")
  const DescriptionTooLong := Violation("description", "Description cannot exceed 500 characters")

  /**
   * Every constraint the draft breaks, each reported once with its message. `@Size`
   * passes a null value and `@NotBlank` rejects it, so a missing title only reports
   * "Title is required", while a long blank title reports both title violations.
   */
  function Violations(d: Draft): (r: set<Violation>)
    ensures r == {} <==> Valid(d)
    ensures TitleRequired in r <==> d.title.None? || Strings.IsBlank(d.title.value)
    ensures TitleTooLong in r <==> d.title.Some? && |d.title.value| > TitleMaxLength
    ensures DescriptionTooLong in r <==> d.description.Some? && |d.description.value| > DescriptionMaxLength
    ensures r <= {TitleRequired, TitleTooLong, DescriptionTooLong}
  {
    (if d.title.None? || Strings.IsBlank(d.title.value) then {TitleRequired} else {})
    + (if d.title.Some? && |d.title.value| > TitleMaxLength then {TitleTooLong} else {})
    + (if d.description.Some? && |d.description.value| > DescriptionMaxLength then {DescriptionTooLong} else {})
  }

  /** A title of whitespace only is rejected, however short. */
  lemma BlankTitleInvalid(d: Draft)
    requires d.title.Some? && Strings.IsBlank(d.title.value)
    ensures !Valid(d) && TitleRequired in Violations(d)
  {
  }

  // ---------------------------------------------------------------------------
  // Timestamp hooks
  // ---------------------------------------------------------------------------

  /**
   * `@PrePersist onCreate`: the entity is written with the id the store assigns and
   * with `createdAt` and `updatedAt` taken from two successive clock reads.
   */
  function OnCreate(d: Draft, id: int, first: Time, second: Time): (t: Todo)
    ensures t.id == id && DraftOf(t) == d
    ensures t.createdAt == first && t.updatedAt == second
    ensures first <= second ==> t.createdAt <= t.updatedAt
  {
    Todo(id, d.title, d.description, d.completed, d.dueDate, first, second)
  }

  /** `@PreUpdate onUpdate`: only `updatedAt` is re-stamped. */
  function OnUpdate(t: Todo, now: Time): (u: Todo)
    ensures u.id == t.id && DraftOf(u) == DraftOf(t) && u.createdAt == t.createdAt
    ensures u.updatedAt == now
    ensures t.createdAt <= now ==> u.createdAt <= u.updatedAt
  {
    t.(updatedAt := now)
  }

  /** Re-stamping a row with times no earlier than its creation keeps `createdAt <= updatedAt`, however often it happens. */
  lemma {:induction false} StampsStayOrdered(t: Todo, times: seq<Time>)
    requires t.createdAt <= t.updatedAt
    requires forall i :: 0 <= i < |times| ==> t.createdAt <= times[i]
    ensures StampAll(t, times).createdAt == t.createdAt
    ensures StampAll(t, times).createdAt <= StampAll(t, times).updatedAt
    decreases |times|
  {
    if |times| > 0 {
      StampsStayOrdered(OnUpdate(t, times[0]), times[1..]);
    }
  }

  /** Applies `onUpdate` once for each clock reading. */
  function StampAll(t: Todo, times: seq<Time>): Todo
    decreases |times|
  {
    if |times| == 0 then t else StampAll(OnUpdate(t, times[0]), times[1..])
  }
}

=== FILE: todo_form.dfy ===
/**
 * The todo dialog (Front-END components/TodoForm.tsx): the Yup validation schema as
 * predicates, the Formik initial values, and the mapping from submitted values to the
 * todo handed to the list.
 */
module TodoForm {
  import opened Wrappers
  import opened Clock
  import opened ClientTodo
  import Strings
  import TodoEntity

  const TitleMaxLength := 100
  const DescriptionMaxLength := 500

  /** The form's fields; the due date is the picked instant, or `null`. */
  datatype FormValues = FormValues(
    title: string,
    description: string,
    completed: bool,
    dueDate: Option<Time>)

  /** `Yup.string().required().max(100)`: `required` rejects only the empty string. */
  predicate TitleAccepted(title: string) {
    title != "" && |title| <= TitleMaxLength
  }

  /** `Yup.string().max(500)`. */
  predicate DescriptionAccepted(description: string) {
    |description| <= DescriptionMaxLength
  }

  /**
   * `Yup.date().min(new Date())` as written: the schema is not `nullable`, so a `null`
   * due date fails the type check before `min` is consulted. `reference` is the instant
   * `new Date()` read when the schema was built.
   */
  predicate DueDateAcceptedAsWritten(dueDate: Option<Time>, reference: Time) {
    dueDate.Some? && dueDate.value >= reference
  }

  /** The due-date rule as intended: the date is optional, and when given it is not in the past. */
  predicate DueDateAccepted(dueDate: Option<Time>, reference: Time) {
    dueDate.None? || dueDate.value >= reference
  }

  predicate SchemaAcceptsAsWritten(v: FormValues, reference: Time) {
    TitleAccepted(v.title) && DescriptionAccepted(v.description)
    && DueDateAcceptedAsWritten(v.dueDate, reference)
  }

  /** The schema with the due-date rule as intended. */
  predicate SchemaAccepts(v: FormValues, reference: Time) {
    TitleAccepted(v.title) && DescriptionAccepted(v.description)
    && DueDateAccepted(v.dueDate, reference)
  }

  /** The schema as written turns away every form without a due date. */
  lemma NoDueDateRejectedAsWritten(v: FormValues, reference: Time)
    requires v.dueDate.None?
    ensures !SchemaAcceptsAsWritten(v, reference)
    ensures SchemaAccepts(v, reference) <==> TitleAccepted(v.title) && DescriptionAccepted(v.description)
  {
  }

  /**
   * A new todo typed into a fresh dialog, say the title "Buy milk" and nothing else,
   * cannot be submitted under the schema as written; the intended schema accepts it.
   */
  lemma NewTodoWithoutDueDate(reference: Time)
    ensures var v := InitialValues(None).(title := "Buy milk");
      !SchemaAcceptsAsWritten(v, reference) && SchemaAccepts(v, reference)
  {
  }

  /** The intended schema accepts everything the written one does, and differs only on `null`. */
  lemma WrittenSchemaIsStricter(v: FormValues, reference: Time)
    ensures SchemaAcceptsAsWritten(v, reference) ==> SchemaAccepts(v, reference)
    ensures v.dueDate.Some? ==> (SchemaAcceptsAsWritten(v, reference) <==> SchemaAccepts(v, reference))
  {
  }

  /**
   * The values the dialog starts from: the edited todo's fields, falsy ones replaced by
   * the defaults, or the defaults for a new todo.
   */
  function InitialValues(initial: Option<Todo>): (v: FormValues)
    ensures initial.None? ==> v == FormValues("", "", false, None)
    ensures initial.Some? ==> && v.title == initial.value.title
                              && v.completed == initial.value.completed
                              && v.dueDate == initial.value.dueDate
                              && v.description == initial.value.description.GetOr("")
  {
    match initial
    case None => FormValues("", "", false, None)
    case Some(t) => FormValues(t.title, t.description.GetOr(""), t.completed, t.dueDate)
  }

  /**
   * The todo handed to the list on submit: the values spread into an object without
   * an id or timestamps, the due date converted back to its ISO string.
   */
  function Payload(v: FormValues): (t: Todo)
    ensures t.id.None? && t.createdAt.None? && t.updatedAt.None?
    ensures t.title == v.title && t.description == Some(v.description)
    ensures t.completed == v.completed && t.dueDate == v.dueDate
  {
    Todo(None, v.title, Some(v.description), v.completed, v.dueDate, None, None)
  }

  /**
   * Submitting the dialog untouched sends back the edited todo's title, completion
   * and due date; an absent description comes back as the empty string.
   */
  lemma UntouchedEditRoundTrip(t: Todo)
    ensures var p := Payload(InitialValues(Some(t)));
      && p.title == t.title && p.completed == t.completed && p.dueDate == t.dueDate
      && p.description == Some(t.description.GetOr(""))
      && (t.description.Some? ==> p.description == t.description)
  {
  }

  /** The todo as the back end binds it from the JSON the client sends. */
  function WireBody(t: Todo): TodoEntity.Body {
    TodoEntity.Body(Some(t.title), t.description, Some(t.completed), t.dueDate)
  }

  /**
   * On a submitted form the two layers' rules differ by blankness alone: the back end
   * accepts the body exactly when the form's title and description rules hold and the
   * title has a character above U+0020.
   */
  lemma LayersDifferOnlyByBlankness(v: FormValues)
    ensures TodoEntity.Valid(TodoEntity.Bind(WireBody(Payload(v))))
            <==> TitleAccepted(v.title) && DescriptionAccepted(v.description) && !Strings.IsBlank(v.title)
  {
    if v.title == "" {
      assert Strings.IsBlank(v.title);
    }
  }

  /** Any title and description the back end accepts also pass the form's rules. */
  lemma ServerRulesImplyFormRules(d: TodoEntity.Draft)
    requires TodoEntity.Valid(d)
    ensures TitleAccepted(d.title.value)
    ensures DescriptionAccepted(d.description.GetOr(""))
  {
  }

  /** The converse fails: a title of one space passes the form but not `@NotBlank`. */
  lemma WhitespaceTitlePassesOnlyTheForm()
    ensures TitleAccepted(" ")
    ensures !TodoEntity.Valid(TodoEntity.Draft(Some(" "), None, false, None))
  {
    assert Strings.IsBlank(" ") by {
      assert Strings.IsTrimmable(" "[0]);
    }
  }
}

=== FILE: todo_list.dfy ===
/**
 * The todo list screen (Front-END components/TodoList.tsx): the filter and search
 * applied to the fetched todos, and the small state machine behind the dialog that
 * decides between creating and updating on submit.
 */
module TodoList {
  import opened Wrappers
  import opened Clock
  import opened ClientTodo
  import Strings
  import TodoForm
  import ClientService

  // ---------------------------------------------------------------------------
  // Filter and search
  // ---------------------------------------------------------------------------

  datatype Filter = All | Active | Completed

  predicate MatchesFilter(t: Todo, f: Filter) {
    match f
    case All => true
    case Active => !t.completed
    case Completed => t.completed
  }

  /** `s.toLowerCase().includes(q.toLowerCase())`, folding ASCII letters only. */
  predicate IncludesIgnoringCase(s: string, q: string) {
    Strings.Contains(Strings.Lower(s), Strings.Lower(q))
  }

  /** An empty query keeps everything; otherwise the title or a present description must contain it. */
  predicate MatchesSearch(t: Todo, q: string) {
    || q == ""
    || IncludesIgnoringCase(t.title, q)
    || (t.description.Some? && IncludesIgnoringCase(t.description.value, q))
  }

  predicate Shown(t: Todo, f: Filter, q: string) {
    MatchesFilter(t, f) && MatchesSearch(t, q)
  }

  /** `a` is `b` with some elements dropped and the rest in their original order. */
  predicate IsSubsequence<T(==)>(a: seq<T>, b: seq<T>)
    decreases |b|
  {
    || a == []
    || (&& b != []
        && if a[0] == b[0] then IsSubsequence(a[1..], b[1..]) else IsSubsequence(a, b[1..]))
  }

  /** `todos.filter(...)`: the todos the list displays, in the order fetched. */
  function FilteredTodos(todos: seq<Todo>, f: Filter, q: string): (r: seq<Todo>)
    ensures IsSubsequence(r, todos)
    ensures forall i :: 0 <= i < |r| ==> Shown(r[i], f, q)
    ensures forall t :: Shown(t, f, q) ==> multiset(r)[t] == multiset(todos)[t]
    ensures forall t :: t in r <==> t in todos && Shown(t, f, q)
    decreases |todos|
  {
    if todos == [] then []
    else
      var rest := FilteredTodos(todos[1..], f, q);
      assert todos == [todos[0]] + todos[1..];
      if Shown(todos[0], f, q) then [todos[0]] + rest else rest
  }

  /** With filter `all` and an empty search, the list shows every fetched todo. */
  lemma {:induction false} AllWithEmptySearchShowsEverything(todos: seq<Todo>)
    ensures FilteredTodos(todos, All, "") == todos
    decreases |todos|
  {
    if todos != [] {
      AllWithEmptySearchShowsEverything(todos[1..]);
    }
  }

  /** The list's view of a non-empty list: its head if shown, then the view of the tail. */
  lemma FilteredTodosUnfold(todos: seq<Todo>, f: Filter, q: string)
    requires todos != []
    ensures FilteredTodos(todos, f, q)
            == (if Shown(todos[0], f, q) then [todos[0]] else []) + FilteredTodos(todos[1..], f, q)
  {
  }

  /** For any search, the active and the completed views split the `all` view between them. */
  lemma {:induction false} ActiveAndCompletedPartitionAll(todos: seq<Todo>, q: string)
    ensures multiset(FilteredTodos(todos, Active, q)) + multiset(FilteredTodos(todos, Completed, q))
            == multiset(FilteredTodos(todos, All, q))
    ensures |FilteredTodos(todos, Active, q)| + |FilteredTodos(todos, Completed, q)|
            == |FilteredTodos(todos, All, q)|
    decreases |todos|
  {
    if todos != [] {
      ActiveAndCompletedPartitionAll(todos[1..], q);
      FilteredTodosUnfold(todos, Active, q);
      FilteredTodosUnfold(todos, Completed, q);
      FilteredTodosUnfold(todos, All, q);
      var t := todos[0];
      MergeHead(if MatchesSearch(t, q) then [t] else [], t.completed,
        FilteredTodos(todos[1..], Active, q), FilteredTodos(todos[1..], Completed, q),
        FilteredTodos(todos[1..], All, q));
    }
    assert |multiset(FilteredTodos(todos, All, q))| == |FilteredTodos(todos, All, q)|;
  }

  /** Putting the same head in front of one side of a split and in front of the whole keeps the split. */
  lemma MergeHead(head: seq<Todo>, right: bool, a: seq<Todo>, c: seq<Todo>, l: seq<Todo>)
    requires multiset(a) + multiset(c) == multiset(l)
    ensures right ==> multiset(a) + multiset(head + c) == multiset(head + l)
    ensures !right ==> multiset(head + a) + multiset(c) == multiset(head + l)
  {
    assert multiset(head + l) == multiset(head) + multiset(l);
    assert multiset(head + c) == multiset(head) + multiset(c);
    assert multiset(head + a) == multiset(head) + multiset(a);
  }

  /** The search ignores the case of the query: upper-casing it changes nothing. */
  lemma SearchIgnoresQueryCase(t: Todo, q: string)
    ensures MatchesSearch(t, Strings.Upper(q)) <==> MatchesSearch(t, q)
  {
    assert Strings.Lower(Strings.Upper(q)) == Strings.Lower(q) by {
      forall i | 0 <= i < |q|
        ensures Strings.Lower(Strings.Upper(q))[i] == Strings.Lower(q)[i]
      {
        Strings.FoldingsAgree(Strings.Upper(q)[i], q[i]);
      }
    }
  }

  /**
   * A todo the server's title search returns for a query also passes the list's
   * search for that query.
   */
  lemma ServerTitleMatchIsShown(t: Todo, q: string)
    requires Strings.Contains(Strings.Upper(t.title), Strings.Upper(q))
    ensures MatchesSearch(t, q)
  {
    Strings.UpperAndLowerSearchAgree(t.title, q);
  }

  // ---------------------------------------------------------------------------
  // Dialog state
  // ---------------------------------------------------------------------------

  /**
   * How the dialog's form behaves. As written, the due date is not nullable and the
   * form, mounted once with the list, keeps its Formik values from one opening to the
   * next (there is no `enableReinitialize`). As intended, the due date is optional and
   * each opening starts from the values the list passes in.
   */
  datatype FormSetup = FormSetup(nullableDueDate: bool, resetOnOpen: bool)

  const AsWritten := FormSetup(false, false)
  const Intended := FormSetup(true, true)

  /** The validation the form runs before it hands its values on. */
  predicate Accepts(setup: FormSetup, v: TodoForm.FormValues, reference: Time) {
    if setup.nullableDueDate then TodoForm.SchemaAccepts(v, reference)
    else TodoForm.SchemaAcceptsAsWritten(v, reference)
  }

  /**
   * The component's state: dialog open, selected todo, the form's current values,
   * filter and search box.
   */
  datatype ListState = ListState(
    formOpen: bool,
    selected: Option<Todo>,
    values: TodoForm.FormValues,
    filter: Filter,
    query: string)

  /** Once the list has loaded, the form mounts with nothing selected. */
  const Initial := ListState(false, None, TodoForm.InitialValues(None), All, "")

  /** The server calls the list can trigger. */
  datatype Mutation =
    | CreateMutation(todo: Todo)
    | UpdateMutation(id: int, todo: Todo)
    | DeleteMutation(id: int)
    | ToggleMutation(id: int)

  datatype Event =
    | AddClicked
    | EditClicked(todo: Todo)
    | DialogClosed
    | Edited(values: TodoForm.FormValues)
    | Submitted
    | ToggleClicked(todo: Todo)
    | DeleteClicked(id: int)
    | FilterChanged(filter: Filter)
    | QueryChanged(query: string)

  /**
   * `handleSubmit`: a selected todo with a truthy id is updated under that id, with
   * the id written into the body; anything else is created. The dialog then closes
   * and the selection is cleared.
   */
  function HandleSubmit(s: ListState, payload: Todo): (r: (ListState, Mutation))
    ensures r.0 == s.(formOpen := false, selected := None)
    ensures r.1.UpdateMutation? <==> s.selected.Some? && HasId(s.selected.value)
    ensures r.1.UpdateMutation? ==> && Some(r.1.id) == s.selected.value.id
                                    && r.1.todo == payload.(id := Some(r.1.id))
    ensures !r.1.UpdateMutation? ==> r.1 == CreateMutation(payload)
  {
    var m := if s.selected.Some? && HasId(s.selected.value)
      then UpdateMutation(s.selected.value.id.value, payload.(id := s.selected.value.id))
      else CreateMutation(payload);
    (s.(formOpen := false, selected := None), m)
  }

  /** Opens the dialog on `selection`; the form restarts from its values only when the setup resets on open. */
  function Open(s: ListState, selection: Option<Todo>, setup: FormSetup): (r: ListState)
    ensures r.formOpen && r.selected == selection
    ensures r.values == (if setup.resetOnOpen then TodoForm.InitialValues(selection) else s.values)
    ensures r.filter == s.filter && r.query == s.query
  {
    s.(formOpen := true, selected := selection,
       values := if setup.resetOnOpen then TodoForm.InitialValues(selection) else s.values)
  }

  /**
   * One user action. Typing changes the form's values while the dialog is open. A
   * submit goes through only while the dialog is open and the form's values pass the
   * setup's validation, `reference` being the instant the schema compares due dates
   * against; rejected values leave everything as it was. The form's values survive
   * closing and submitting.
   */
  function Step(s: ListState, e: Event, setup: FormSetup, reference: Time): (r: (ListState, Option<Mutation>))
    ensures e.AddClicked? ==> r == (Open(s, None, setup), None)
    ensures e.EditClicked? ==> r == (Open(s, Some(e.todo), setup), None)
    ensures e.DialogClosed? ==> r == (s.(formOpen := false, selected := None), None)
    ensures e.Edited? ==> r == (if s.formOpen then s.(values := e.values) else s, None)
    ensures e.Submitted? ==>
      if s.formOpen && Accepts(setup, s.values, reference)
      then && r.1.Some? && r.0 == s.(formOpen := false, selected := None)
           && (r.1.value.CreateMutation? || r.1.value.UpdateMutation?)
           && (r.1.value.UpdateMutation? <==> s.selected.Some? && HasId(s.selected.value))
           && (r.1.value.UpdateMutation? ==>
                 && Some(r.1.value.id) == s.selected.value.id
                 && r.1.value.todo == TodoForm.Payload(s.values).(id := s.selected.value.id))
           && (r.1.value.CreateMutation? ==> r.1.value.todo == TodoForm.Payload(s.values))
           && r.1.value.todo.title == s.values.title
           && r.1.value.todo.description == Some(s.values.description)
           && r.1.value.todo.completed == s.values.completed
           && r.1.value.todo.dueDate == s.values.dueDate
           && (r.1.value.CreateMutation? ==> r.1.value.todo.id.None?)
      else r == (s, None)
    ensures e.ToggleClicked? ==>
      r == (s, if HasId(e.todo) then Some(ToggleMutation(e.todo.id.value)) else None)
    ensures e.DeleteClicked? ==> r == (s, Some(DeleteMutation(e.id)))
    ensures r.0.filter == (if e.FilterChanged? then e.filter else s.filter)
    ensures r.0.query == (if e.QueryChanged? then e.query else s.query)
  {
    match e
    case AddClicked => (Open(s, None, setup), None)
    case EditClicked(t) => (Open(s, Some(t), setup), None)
    case DialogClosed => (s.(formOpen := false, selected := None), None)
    case Edited(v) => (if s.formOpen then s.(values := v) else s, None)
    case Submitted =>
      if s.formOpen && Accepts(setup, s.values, reference) then
        var (next, m) := HandleSubmit(s, TodoForm.Payload(s.values));
        (next, Some(m))
      else (s, None)
    case ToggleClicked(t) => (s, if HasId(t) then Some(ToggleMutation(t.id.value)) else None)
    case DeleteClicked(id) => (s, Some(DeleteMutation(id)))
    case FilterChanged(f) => (s.(filter := f), None)
    case QueryChanged(q) => (s.(query := q), None)
  }

  /** A todo is selected only while the dialog is open. */
  predicate SelectionInvariant(s: ListState) {
    !s.formOpen ==> s.selected.None?
  }

  /** Runs a sequence of actions, `reference` standing for the clock at each submit. */
  function Run(s: ListState, events: seq<Event>, setup: FormSetup, reference: Time): (r: ListState)
    ensures SelectionInvariant(s) ==> SelectionInvariant(r)
    decreases |events|
  {
    if events == [] then s
    else
      StepKeepsSelectionInvariant(s, events[0], setup, reference);
      Run(Step(s, events[0], setup, reference).0, events[1..], setup, reference)
  }

  /** Every action keeps the selection invariant. */
  lemma StepKeepsSelectionInvariant(s: ListState, e: Event, setup: FormSetup, reference: Time)
    ensures SelectionInvariant(s) ==> SelectionInvariant(Step(s, e, setup, reference).0)
  {
  }

  /** When the form resets on opening, Edit shows the todo's own values and Add shows the empty form. */
  lemma DialogShowsSelection(s: ListState, t: Todo, reference: Time)
    ensures Step(s, EditClicked(t), Intended, reference).0.values == TodoForm.InitialValues(Some(t))
    ensures Step(s, AddClicked, Intended, reference).0.values == TodoForm.FormValues("", "", false, None)
  {
  }

  /** As written, opening the dialog shows whatever the form held before, whichever todo is selected. */
  lemma OpeningKeepsEarlierValues(s: ListState, t: Todo, reference: Time)
    ensures Step(s, EditClicked(t), AsWritten, reference).0.values == s.values
    ensures Step(s, AddClicked, AsWritten, reference).0.values == s.values
  {
  }

  /**
   * As written, Edit right after the list loads shows the empty form rather than the
   * todo, and saving it untouched sends nothing: the empty title fails `required`.
   */
  lemma EditAfterLoadShowsEmptyForm(t: Todo, reference: Time)
    requires t.title != ""
    ensures var editing := Step(Initial, EditClicked(t), AsWritten, reference).0;
      && editing.values == TodoForm.FormValues("", "", false, None)
      && editing.values != TodoForm.InitialValues(Some(t))
      && Step(editing, Submitted, AsWritten, reference) == (editing, None)
  {
  }

  /**
   * As intended, saving an edited todo untouched sends an update of that todo under
   * its id, carrying its own title, completion and due date.
   */
  lemma UntouchedEditSavesThatTodo(s: ListState, t: Todo, reference: Time)
    requires HasId(t)
    requires TodoForm.SchemaAccepts(TodoForm.InitialValues(Some(t)), reference)
    ensures var editing := Step(s, EditClicked(t), Intended, reference).0;
            var m := Step(editing, Submitted, Intended, reference).1;
      && m.Some? && m.value.UpdateMutation? && Some(m.value.id) == t.id
      && m.value.todo.id == t.id && m.value.todo.title == t.title
      && m.value.todo.completed == t.completed && m.value.todo.dueDate == t.dueDate
  {
  }

  /** The request a mutation sends. */
  function RequestFor(m: Mutation): ClientService.Request {
    ClientService.Build(match m
      case CreateMutation(t) => ClientService.CreateTodo(t)
      case UpdateMutation(id, t) => ClientService.UpdateTodo(id, t)
      case DeleteMutation(id) => ClientService.DeleteTodo(id)
      case ToggleMutation(id) => ClientService.ToggleTodoStatus(id))
  }

  /**
   * Editing a todo with id `n`, typing values the form accepts and submitting sends a
   * PUT that the server reads as an update of `n` whose body carries id `n`.
   */
  lemma EditThenSubmitUpdatesThatTodo(s: ListState, t: Todo, v: TodoForm.FormValues, setup: FormSetup, reference: Time)
    requires HasId(t)
    requires Accepts(setup, v, reference)
    ensures var editing := Step(s, EditClicked(t), setup, reference).0;
            var typed := Step(editing, Edited(v), setup, reference).0;
            var (closed, m) := Step(typed, Submitted, setup, reference);
      && m == Some(UpdateMutation(t.id.value, TodoForm.Payload(v).(id := t.id)))
      && ClientService.Route(RequestFor(m.value))
           == Some(ClientService.UpdateTodo(t.id.value, TodoForm.Payload(v).(id := t.id)))
      && !closed.formOpen && closed.selected.None?
      && closed.filter == s.filter && closed.query == s.query
  {
    var m := UpdateMutation(t.id.value, TodoForm.Payload(v).(id := t.id));
    ClientService.RouteOfBuild(ClientService.UpdateTodo(m.id, m.todo));
  }

  /** Adding, typing values the form accepts and submitting sends a POST of the form's payload. */
  lemma AddThenSubmitCreates(s: ListState, v: TodoForm.FormValues, setup: FormSetup, reference: Time)
    requires Accepts(setup, v, reference)
    ensures var adding := Step(s, AddClicked, setup, reference).0;
            var typed := Step(adding, Edited(v), setup, reference).0;
            var (closed, m) := Step(typed, Submitted, setup, reference);
      && m == Some(CreateMutation(TodoForm.Payload(v)))
      && RequestFor(m.value) == ClientService.Request(ClientService.Post, ClientService.ApiBaseUrl, Some(TodoForm.Payload(v)))
      && !closed.formOpen && closed.selected.None?
  {
  }

  /**
   * As written, a new todo without a due date cannot be created: the submit is turned
   * away, nothing is sent and the dialog stays open with the typed values.
   */
  lemma AddWithoutDueDateAsWritten(s: ListState, v: TodoForm.FormValues, reference: Time)
    requires v.dueDate.None?
    ensures var adding := Step(s, AddClicked, AsWritten, reference).0;
            var typed := Step(adding, Edited(v), AsWritten, reference).0;
      && typed.formOpen && typed.values == v
      && Step(typed, Submitted, AsWritten, reference) == (typed, None)
  {
  }

  /**
   * As intended, a new todo without a due date is created once its title and
   * description pass the form's rules.
   */
  lemma AddWithoutDueDateAsIntended(s: ListState, v: TodoForm.FormValues, reference: Time)
    requires v.dueDate.None?
    requires TodoForm.TitleAccepted(v.title) && TodoForm.DescriptionAccepted(v.description)
    ensures var adding := Step(s, AddClicked, Intended, reference).0;
            var typed := Step(adding, Edited(v), Intended, reference).0;
            var (closed, m) := Step(typed, Submitted, Intended, reference);
      && m == Some(CreateMutation(TodoForm.Payload(v)))
      && !closed.formOpen
  {
  }
}

=== FILE: todo_repository.dfy ===
/**
 * The persistence contract (Back-END repository/TodoRepository.java plus the
 * `JpaRepository` operations the service calls) over an abstract store: a map from id
 * to row and the next id the identity column will hand out.
 */
module TodoRepository {
  import opened Wrappers
  import opened Clock
  import opened TodoEntity
  import Strings

  datatype Store = Store(rows: map<int, Todo>, nextId: int)

  /** The table before anything is inserted: identity values start at 1. */
  const Empty := Store(map[], 1)

  /** Every row sits under its own id. */
  predicate KeysMatch(rows: map<int, Todo>) {
    forall k :: k in rows ==> rows[k].id == k
  }

  /**
   * The store's structural invariant, which every operation keeps: ids are positive,
   * each row sits under its own id, and every id in use was issued before `nextId`.
   */
  predicate Wf(s: Store) {
    && s.nextId >= 1
    && KeysMatch(s.rows)
    && (forall k :: k in s.rows ==> 1 <= k < s.nextId)
  }

  /**
   * No row was updated before it was created. Nothing in the store depends on it; it
   * holds for as long as the clock does not run backwards.
   */
  predicate StampsOrdered(s: Store) {
    forall k :: k in s.rows ==> s.rows[k].createdAt <= s.rows[k].updatedAt
  }

  lemma EmptyWf()
    ensures Wf(Empty) && StampsOrdered(Empty) && Empty.rows == map[]
  {
  }

  /** The ids of the rows in a listing. */
  function IdsOf(r: seq<Todo>): set<int> {
    set i | 0 <= i < |r| :: r[i].id
  }

  /** The ids of the stored rows that satisfy `keep`. */
  function KeysWhere(rows: map<int, Todo>, keep: Todo -> bool): set<int> {
    set k | k in rows && keep(rows[k])
  }

  /**
   * The rows with ids in `[lo, hi)` that satisfy `keep`, in ascending id order: all of
   * them, only them, each once.
   */
  function Scan(rows: map<int, Todo>, keep: Todo -> bool, lo: int, hi: int): (r: seq<Todo>)
    requires KeysMatch(rows)
    ensures forall i :: 0 <= i < |r| ==> r[i].id in rows && rows[r[i].id] == r[i] && lo <= r[i].id < hi && keep(r[i])
    ensures forall i, j :: 0 <= i < j < |r| ==> r[i].id < r[j].id
    ensures forall k :: lo <= k < hi && k in rows && keep(rows[k]) ==> rows[k] in r
    decreases hi - lo
  {
    if lo >= hi then []
    else (if lo in rows && keep(rows[lo]) then [rows[lo]] else []) + Scan(rows, keep, lo + 1, hi)
  }

  /** Ordered by ascending id with no repeats: one of the orders the table may return rows in. */
  predicate IdsAscending(r: seq<Todo>) {
    forall i, j :: 0 <= i < j < |r| ==> r[i].id < r[j].id
  }

  /** A listing in ascending id order has one entry per id. */
  lemma {:induction false} AscendingIdsDistinct(r: seq<Todo>)
    requires IdsAscending(r)
    ensures |IdsOf(r)| == |r|
    decreases |r|
  {
    if r != [] {
      AscendingIdsDistinct(r[1..]);
      assert IdsOf(r) == {r[0].id} + IdsOf(r[1..]) by {
        forall k | k in IdsOf(r)
          ensures k in {r[0].id} + IdsOf(r[1..])
        {
          var i :| 0 <= i < |r| && r[i].id == k;
          if i > 0 {
            assert r[1..][i - 1].id == k;
          }
        }
        forall k | k in IdsOf(r[1..])
          ensures k in IdsOf(r)
        {
          var i :| 0 <= i < |r[1..]| && r[1..][i].id == k;
          assert r[i + 1].id == k;
        }
      }
      assert r[0].id !in IdsOf(r[1..]) by {
        forall i | 0 <= i < |r[1..]|
          ensures r[1..][i].id != r[0].id
        {
          assert r[1..][i] == r[i + 1];
        }
      }
    }
  }

  /** A scan of the whole id range lists each row that satisfies `keep` exactly once. */
  lemma ScanLength(s: Store, keep: Todo -> bool)
    requires Wf(s)
    ensures |Scan(s.rows, keep, 1, s.nextId)| == |KeysWhere(s.rows, keep)|
  {
    var r := Scan(s.rows, keep, 1, s.nextId);
    AscendingIdsDistinct(r);
    forall k | k in KeysWhere(s.rows, keep)
      ensures k in IdsOf(r)
    {
      var i :| 0 <= i < |r| && r[i] == s.rows[k];
      assert r[i].id == k;
    }
    assert IdsOf(r) == KeysWhere(s.rows, keep);
  }

  /**
   * A query over the whole table: all and only the rows that satisfy `keep`, in
   * ascending id order, as many entries as there are such rows.
   */
  function Query(s: Store, keep: Todo -> bool): (r: seq<Todo>)
    requires Wf(s)
    ensures forall t :: t in r <==> t in s.rows.Values && keep(t)
    ensures IdsAscending(r)
    ensures |r| == |KeysWhere(s.rows, keep)|
  {
    ScanLength(s, keep);
    Scan(s.rows, keep, 1, s.nextId)
  }

  /** `findAll`: every row, each once. */
  function FindAll(s: Store): (r: seq<Todo>)
    requires Wf(s)
    ensures forall t :: t in r <==> t in s.rows.Values
    ensures IdsAscending(r)
    ensures |r| == |s.rows|
  {
    assert KeysWhere(s.rows, Everything) == s.rows.Keys;
    Query(s, Everything)
  }

  /** `findById`: the row stored under `id`, if any. */
  function FindById(s: Store, id: int): (r: Option<Todo>)
    ensures r.Some? <==> id in s.rows
    ensures r.Some? ==> r.value == s.rows[id]
    ensures Wf(s) && r.Some? ==> r.value.id == id
  {
    if id in s.rows then Some(s.rows[id]) else None
  }

  /** The rows with the given flag. */
  predicate HasStatus(t: Todo, completed: bool) {
    t.completed == completed
  }

  /** `findByCompleted`: the rows whose flag equals `completed`, each once. */
  function FindByCompleted(s: Store, completed: bool): (r: seq<Todo>)
    requires Wf(s)
    ensures forall t :: t in r <==> t in s.rows.Values && t.completed == completed
    ensures IdsAscending(r)
    ensures |r| == |set k | k in s.rows && s.rows[k].completed == completed|
  {
    var keep := (t: Todo) => HasStatus(t, completed);
    assert KeysWhere(s.rows, keep) == set k | k in s.rows && s.rows[k].completed == completed;
    Query(s, keep)
  }

  /** The derived query's condition `UPPER(title) LIKE UPPER('%' || ? || '%')`; a null title never matches. */
  predicate TitleMatches(t: Todo, query: string) {
    t.title.Some? && Strings.Contains(Strings.Upper(t.title.value), Strings.Upper(query))
  }

  /** `findByTitleContainingIgnoreCase`: the rows whose title contains `query`, ignoring case. */
  function FindByTitleContainingIgnoreCase(s: Store, query: string): (r: seq<Todo>)
    requires Wf(s)
    ensures forall t :: t in r <==> t in s.rows.Values && TitleMatches(t, query)
    ensures IdsAscending(r)
    ensures |r| == |set k | k in s.rows && TitleMatches(s.rows[k], query)|
  {
    var keep := (t: Todo) => TitleMatches(t, query);
    assert KeysWhere(s.rows, keep) == set k | k in s.rows && TitleMatches(s.rows[k], query);
    Query(s, keep)
  }

  /**
   * `save` of a new entity. Bean Validation runs before the insert (JPA's default
   * validation mode with a validator present), so an invalid draft is refused with its
   * violations and nothing is written. Otherwise the identity column assigns `nextId`,
   * an id never issued before, and `@PrePersist` stamps both timestamps from two clock
   * reads.
   */
  function SaveNew(s: Store, d: Draft, first: Time, second: Time): (r: Result<(Store, Todo), set<Violation>>)
    ensures r.Err? <==> !Valid(d)
    ensures r.Err? ==> r.error == Violations(d)
    ensures r.Ok? ==>
      var (s', t) := r.value;
      && t.id == s.nextId
      && DraftOf(t) == d && t.createdAt == first && t.updatedAt == second
      && s'.rows == s.rows[t.id := t]
      && s'.nextId == s.nextId + 1
      && (Wf(s) ==> t.id !in s.rows && (forall k :: k in s.rows ==> k < t.id) && t.id >= 1)
    ensures r.Ok? && Wf(s) ==> Wf(r.value.0)
    ensures r.Ok? && StampsOrdered(s) && first <= second ==> StampsOrdered(r.value.0)
  {
    if Violations(d) != {} then Err(Violations(d))
    else
      var t := OnCreate(d, s.nextId, first, second);
      assert Wf(s) ==> t.id !in s.rows;
      Ok((Store(s.rows[t.id := t], s.nextId + 1), t))
  }

  /**
   * `save` of a row loaded from the store and modified in memory. A row the flush finds
   * unchanged is left alone: neither `@PreUpdate` nor validation runs, and it keeps its
   * `updatedAt`. A changed row is validated first, and an invalid one is refused with
   * its violations and nothing is written; a valid one is re-stamped and replaced.
   */
  function SaveExisting(s: Store, t: Todo, now: Time): (r: Result<(Store, Todo), set<Violation>>)
    requires t.id in s.rows
    ensures t == s.rows[t.id] ==> r == Ok((s, t))
    ensures t != s.rows[t.id] ==> (r.Err? <==> !Valid(DraftOf(t)))
    ensures r.Err? ==> r.error == Violations(DraftOf(t))
    ensures t != s.rows[t.id] && r.Ok? ==> r.value.1 == OnUpdate(t, now)
    ensures r.Ok? ==> && r.value.0 == Store(s.rows[t.id := r.value.1], s.nextId)
                      && r.value.1.id == t.id && r.value.1.createdAt == t.createdAt
    ensures r.Ok? && Wf(s) ==> Wf(r.value.0)
    ensures r.Ok? && StampsOrdered(s) && t.createdAt == s.rows[t.id].createdAt && t.createdAt <= now
            ==> StampsOrdered(r.value.0)
  {
    if t == s.rows[t.id] then Ok((s, t))
    else if Violations(DraftOf(t)) != {} then Err(Violations(DraftOf(t)))
    else
      var u := OnUpdate(t, now);
      Ok((Store(s.rows[t.id := u], s.nextId), u))
  }

  /** `delete`: the row with that id disappears; `nextId` is untouched, so the id is never reissued. */
  function Delete(s: Store, t: Todo): (r: Store)
    ensures t.id !in r.rows
    ensures forall k :: k != t.id ==> (k in r.rows <==> k in s.rows)
    ensures forall k :: k in r.rows ==> r.rows[k] == s.rows[k]
    ensures r.nextId == s.nextId
    ensures Wf(s) ==> Wf(r)
    ensures StampsOrdered(s) ==> StampsOrdered(r)
  {
    Store(s.rows - {t.id}, s.nextId)
  }

  /** The filter that keeps every row. */
  predicate Everything(t: Todo) { true }

  /** Scanning with a filter and with its complement splits the scan of everything. */
  lemma {:induction false} ScanSplits(rows: map<int, Todo>, p: Todo -> bool, q: Todo -> bool, lo: int, hi: int)
    requires KeysMatch(rows)
    requires forall t :: q(t) == !p(t)
    ensures multiset(Scan(rows, Everything, lo, hi))
      == multiset(Scan(rows, p, lo, hi)) + multiset(Scan(rows, q, lo, hi))
    decreases hi - lo
  {
    if lo < hi {
      ScanSplits(rows, p, q, lo + 1, hi);
    }
  }

  /** The completed rows and the open rows together are exactly all rows. */
  lemma CompletedPartitionsAll(s: Store)
    requires Wf(s)
    ensures multiset(FindAll(s)) == multiset(FindByCompleted(s, true)) + multiset(FindByCompleted(s, false))
  {
    ScanSplits(s.rows, (t: Todo) => HasStatus(t, true), (t: Todo) => HasStatus(t, false), 1, s.nextId);
  }
}

=== FILE: todo_service.dfy ===
/**
 * The application rules (Back-END service/TodoService.java) as store transformers:
 * fetch-or-fail with NotFound, merge fields on update, flip the flag on toggle, and
 * hard delete.
 */
module TodoService {
  import opened Wrappers
  import opened Clock
  import opened TodoEntity
  import opened TodoRepository
  import Strings

  /**
   * The failures a request can end in: a missing id; a request body that `@Valid`
   * turns away before the service is reached; and a row that Bean Validation refuses
   * when the service saves it.
   */
  datatype Failure =
    | NotFound(message: string)
    | Invalid(violations: set<Violation>)
    | Rejected(violations: set<Violation>)

  /** The store after a call, and what the call returned or threw. */
  datatype Reply<T> = Reply(store: Store, result: Result<T, Failure>)

  /** The `EntityNotFoundException` message for a missing id. */
  function NotFoundMessage(id: int): (m: string)
    ensures Strings.IsPrefix("Todo not found with id: ", m)
    ensures Strings.ParseDecimal(m[|"Todo not found with id: "|..]) == Some(id)
  {
    var prefix := "Todo not found with id: ";
    var m := prefix + Strings.Decimal(id);
    assert m[..|prefix|] == prefix && m[|prefix|..] == Strings.Decimal(id);
    Strings.DecimalRoundTrip(id);
    m
  }

  /** `getAllTodos`: every stored todo. */
  function GetAllTodos(s: Store): (r: seq<Todo>)
    requires Wf(s)
    ensures forall t :: t in r <==> t in s.rows.Values
    ensures IdsAscending(r) && |r| == |s.rows|
  {
    FindAll(s)
  }

  /** `getTodoById`: the stored todo, or NotFound naming the id. */
  function GetTodoById(s: Store, id: int): (r: Result<Todo, Failure>)
    ensures r.Ok? <==> id in s.rows
    ensures r.Ok? ==> r.value == s.rows[id]
    ensures r.Err? ==> r.error == NotFound(NotFoundMessage(id))
  {
    match FindById(s, id)
    case Some(t) => Ok(t)
    case None => Err(NotFound(NotFoundMessage(id)))
  }

  /** `getTodosByStatus`: all and only the todos whose flag equals `completed`. */
  function GetTodosByStatus(s: Store, completed: bool): (r: seq<Todo>)
    requires Wf(s)
    ensures forall t :: t in r <==> t in s.rows.Values && t.completed == completed
    ensures IdsAscending(r)
    ensures |r| == |set k | k in s.rows && s.rows[k].completed == completed|
  {
    FindByCompleted(s, completed)
  }

  /** `searchTodos`: all and only the todos whose title contains `title`, ignoring case. */
  function SearchTodos(s: Store, title: string): (r: seq<Todo>)
    requires Wf(s)
    ensures forall t :: t in r <==>
      t in s.rows.Values && t.title.Some? &&
      Strings.Contains(Strings.Lower(t.title.value), Strings.Lower(title))
    ensures IdsAscending(r)
    ensures |r| == |set k | k in s.rows && TitleMatches(s.rows[k], title)|
  {
    LowerCaseTitleMatch(title);
    FindByTitleContainingIgnoreCase(s, title)
  }

  /** The store's upper-casing match is the same relation as a lower-casing one. */
  lemma LowerCaseTitleMatch(title: string)
    ensures forall t: Todo :: TitleMatches(t, title) <==>
      t.title.Some? && Strings.Contains(Strings.Lower(t.title.value), Strings.Lower(title))
  {
    forall t: Todo | t.title.Some?
      ensures TitleMatches(t, title) <==> Strings.Contains(Strings.Lower(t.title.value), Strings.Lower(title))
    {
      Strings.UpperAndLowerSearchAgree(t.title.value, title);
    }
  }

  /**
   * `createTodo`: the body is saved as it is. A body that breaks the validation rules
   * is refused by `save` and nothing is written. Otherwise the returned todo carries a
   * fresh id, issued by no earlier create, and can be fetched under that id.
   */
  function CreateTodo(s: Store, d: Draft, first: Time, second: Time): (r: Reply<Todo>)
    requires Wf(s)
    ensures r.result.Ok? <==> Valid(d)
    ensures !Valid(d) ==> r == Reply(s, Err(Rejected(Violations(d))))
    ensures r.result.Ok? ==>
      && r.result.value.id == s.nextId && r.result.value.id !in s.rows && r.result.value.id >= 1
      && r.store.nextId > r.result.value.id
      && DraftOf(r.result.value) == d
      && r.result.value.createdAt == first && r.result.value.updatedAt == second
      && GetTodoById(r.store, r.result.value.id) == Ok(r.result.value)
    ensures forall k :: k in s.rows ==> GetTodoById(r.store, k) == GetTodoById(s, k)
    ensures Wf(r.store)
  {
    match SaveNew(s, d, first, second)
    case Err(v) => Reply(s, Err(Rejected(v)))
    case Ok((s', t)) => Reply(s', Ok(t))
  }

  /**
   * `updateTodo`: for an existing id, title, description, completed and dueDate are
   * overwritten with the supplied values; id and createdAt stay. Details equal to the
   * stored ones leave the row clean, so nothing is written. Changed details that break
   * the validation rules are refused when the row is flushed. A missing id throws
   * NotFound. Every failure leaves the store as it was.
   */
  function UpdateTodo(s: Store, id: int, details: Draft, now: Time): (r: Reply<Todo>)
    requires Wf(s)
    ensures id !in s.rows ==> r == Reply(s, Err(NotFound(NotFoundMessage(id))))
    ensures id in s.rows && DraftOf(s.rows[id]) == details ==> r == Reply(s, Ok(s.rows[id]))
    ensures id in s.rows && DraftOf(s.rows[id]) != details && !Valid(details) ==>
      r == Reply(s, Err(Rejected(Violations(details))))
    ensures id in s.rows && DraftOf(s.rows[id]) != details && Valid(details) ==>
      && r.result.Ok?
      && DraftOf(r.result.value) == details
      && r.result.value.id == id
      && r.result.value.createdAt == s.rows[id].createdAt
      && r.result.value.updatedAt == now
      && r.store == Store(s.rows[id := r.result.value], s.nextId)
    ensures Wf(r.store)
  {
    match GetTodoById(s, id)
    case Err(e) => Reply(s, Err(e))
    case Ok(todo) =>
      var merged := todo.(title := details.title, description := details.description,
                          completed := details.completed, dueDate := details.dueDate);
      assert DraftOf(merged) == details;
      match SaveExisting(s, merged, now)
      case Err(v) => Reply(s, Err(Rejected(v)))
      case Ok((s', saved)) => Reply(s', Ok(saved))
  }

  /** `deleteTodo`: a hard delete of an existing id; a missing id throws NotFound and changes nothing. */
  function DeleteTodo(s: Store, id: int): (r: Reply<()>)
    requires Wf(s)
    ensures id !in s.rows ==> r == Reply(s, Err(NotFound(NotFoundMessage(id))))
    ensures id in s.rows ==> r.result.Ok? && r.store == Store(s.rows - {id}, s.nextId)
    ensures Wf(r.store)
  {
    match GetTodoById(s, id)
    case Err(e) => Reply(s, Err(e))
    case Ok(todo) => Reply(Delete(s, todo), Ok(()))
  }

  /**
   * `toggleTodoStatus`: the flag of an existing todo is negated and `updatedAt`
   * re-stamped; nothing else changes. The flip always dirties the row, so a stored row
   * that breaks the validation rules is refused on flush. A missing id throws NotFound.
   * Every failure leaves the store as it was.
   */
  function ToggleTodoStatus(s: Store, id: int, now: Time): (r: Reply<Todo>)
    requires Wf(s)
    ensures id !in s.rows ==> r == Reply(s, Err(NotFound(NotFoundMessage(id))))
    ensures id in s.rows && !Valid(DraftOf(s.rows[id])) ==>
      r == Reply(s, Err(Rejected(Violations(DraftOf(s.rows[id])))))
    ensures id in s.rows && Valid(DraftOf(s.rows[id])) ==>
      && r.result.Ok?
      && r.result.value == s.rows[id].(completed := !s.rows[id].completed, updatedAt := now)
      && r.store == Store(s.rows[id := r.result.value], s.nextId)
    ensures Wf(r.store)
  {
    match GetTodoById(s, id)
    case Err(e) => Reply(s, Err(e))
    case Ok(todo) =>
      var flipped := todo.(completed := !todo.completed);
      assert Violations(DraftOf(flipped)) == Violations(DraftOf(todo));
      match SaveExisting(s, flipped, now)
      case Err(v) => Reply(s, Err(Rejected(v)))
      case Ok((s', saved)) => Reply(s', Ok(saved))
  }

  // ---------------------------------------------------------------------------
  // Properties relating several calls
  // ---------------------------------------------------------------------------

  /** After a delete the id is gone for good, and every other todo reads as before. */
  lemma DeleteThenGet(s: Store, id: int, other: int)
    requires Wf(s) && id in s.rows && other != id
    ensures GetTodoById(DeleteTodo(s, id).store, id) == Err(NotFound(NotFoundMessage(id)))
    ensures GetTodoById(DeleteTodo(s, id).store, other) == GetTodoById(s, other)
  {
  }

  /**
   * Toggling a valid todo twice restores the flag; only `updatedAt` has moved, to the
   * second clock reading. An invalid stored todo is refused both times.
   */
  lemma ToggleTwiceRestores(s: Store, id: int, first: Time, second: Time)
    requires Wf(s) && id in s.rows
    ensures var s2 := ToggleTodoStatus(ToggleTodoStatus(s, id, first).store, id, second).store;
      && (Valid(DraftOf(s.rows[id])) ==> s2.rows == s.rows[id := s.rows[id].(updatedAt := second)])
      && (!Valid(DraftOf(s.rows[id])) ==> s2 == s)
      && s2.rows[id].completed == s.rows[id].completed
      && s2.nextId == s.nextId
  {
    var s1 := ToggleTodoStatus(s, id, first).store;
    if Valid(DraftOf(s.rows[id])) {
      assert s1.rows[id] == s.rows[id].(completed := !s.rows[id].completed, updatedAt := first);
      assert Valid(DraftOf(s1.rows[id]));
    }
  }

  /**
   * Repeating an update with the same details changes nothing more: the row is no
   * longer dirty, so `@PreUpdate` does not fire and `updatedAt` keeps the first stamp.
   */
  lemma UpdateIsIdempotent(s: Store, id: int, d: Draft, first: Time, second: Time)
    requires Wf(s)
    ensures var r1 := UpdateTodo(s, id, d, first);
      UpdateTodo(r1.store, id, d, second) == r1
  {
    var r1 := UpdateTodo(s, id, d, first);
    if id in s.rows && r1.result.Ok? {
      assert r1.store.rows[id] == r1.result.value;
    }
  }

  /**
   * With a strictly advancing clock a toggle moves `updatedAt` strictly forward exactly
   * when the stored todo passes validation.
   */
  lemma ToggleAdvancesUpdatedAt(s: Store, id: int, now: Time)
    requires Wf(s) && id in s.rows && s.rows[id].updatedAt < now
    ensures ToggleTodoStatus(s, id, now).store.rows[id].updatedAt > s.rows[id].updatedAt
            <==> Valid(DraftOf(s.rows[id]))
  {
  }

  /** The clock has not run backwards: `now` is no earlier than any stored creation time. */
  predicate ClockAfter(s: Store, now: Time) {
    forall k :: k in s.rows ==> s.rows[k].createdAt <= now
  }

  /**
   * Create keeps every row's stamps in order when its two clock reads are in order;
   * with `first > second` a saved row is stamped as updated before it was created.
   */
  lemma CreateKeepsStampsOrdered(s: Store, d: Draft, first: Time, second: Time)
    requires Wf(s) && StampsOrdered(s)
    ensures StampsOrdered(CreateTodo(s, d, first, second).store) <==> first <= second || !Valid(d)
  {
    var r := CreateTodo(s, d, first, second);
    if r.result.Ok? {
      assert r.store.rows[r.result.value.id] == r.result.value;
    }
  }

  /** Update keeps every row's stamps in order when the clock reads no earlier than the row's creation. */
  lemma UpdateKeepsStampsOrdered(s: Store, id: int, d: Draft, now: Time)
    requires Wf(s) && StampsOrdered(s) && (id in s.rows ==> s.rows[id].createdAt <= now)
    ensures StampsOrdered(UpdateTodo(s, id, d, now).store)
  {
  }

  /** Toggle keeps every row's stamps in order when the clock reads no earlier than the row's creation. */
  lemma ToggleKeepsStampsOrdered(s: Store, id: int, now: Time)
    requires Wf(s) && StampsOrdered(s) && (id in s.rows ==> s.rows[id].createdAt <= now)
    ensures StampsOrdered(ToggleTodoStatus(s, id, now).store)
  {
  }

  /** Delete keeps every remaining row's stamps in order. */
  lemma DeleteKeepsStampsOrdered(s: Store, id: int)
    requires Wf(s) && StampsOrdered(s)
    ensures StampsOrdered(DeleteTodo(s, id).store)
  {
  }

  /** For any fixed store, the two status filters split the full listing. */
  lemma StatusFiltersPartition(s: Store)
    requires Wf(s)
    ensures multiset(GetAllTodos(s)) == multiset(GetTodosByStatus(s, true)) + multiset(GetTodosByStatus(s, false))
  {
    CompletedPartitionsAll(s);
  }
}

=== FILE: uri_encoding.dfy ===
/**
 * `encodeURIComponent` (ECMA-262, section 19.2.6 "URI Handling Functions"): every
 * character outside the unescaped set is written as the `%XY` escapes of its UTF-8
 * bytes (RFC 3629), which is the percent-encoding of section 2.1 of RFC 3986.
 * `DecodeURIComponent` is the reference inverse: it undoes the escapes and rejects
 * ill-formed input, as `decodeURIComponent` throws `URIError` on it.
 */
module UriEncoding {
  import opened Wrappers

  type byte = b: int | 0 <= b < 256

  /** uriAlpha, DecimalDigit and uriMark: the characters `encodeURIComponent` keeps as they are. */
  predicate IsUnescaped(c: char) {
    || ('A' <= c <= 'Z')
    || ('a' <= c <= 'z')
    || ('0' <= c <= '9')
    || c == '-' || c == '_' || c == '.' || c == '!' || c == '~' || c == '*' || c == '\'' || c == '(' || c == ')'
  }

  // ---------------------------------------------------------------------------
  // UTF-8, RFC 3629 section 3
  // ---------------------------------------------------------------------------

  predicate IsContinuation(b: byte) { 0x80 <= b < 0xC0 }

  /** The six payload bits of a continuation byte. */
  function Payload(b: byte): int { b as int - 0x80 }

  /** A Unicode scalar value: a code point that is not a surrogate. */
  predicate IsScalar(cp: int) { 0 <= cp < 0xD800 || 0xE000 <= cp < 0x11_0000 }

  /** The UTF-8 bytes of one character, six payload bits per continuation byte. */
  function Utf8(c: char): (r: seq<byte>)
    ensures 1 <= |r| <= 4
    ensures |r| == 1 <==> c as int < 0x80
    ensures |r| == 1 ==> r[0] == c as int
    ensures forall i :: 1 <= i < |r| ==> IsContinuation(r[i])
  {
    var cp := c as int;
    if cp < 0x80 then [cp]
    else if cp < 0x800 then [0xC0 + cp / 64, 0x80 + cp % 64]
    else if cp < 0x1_0000 then
      var x := cp / 64;
      [0xE0 + x / 64, 0x80 + x % 64, 0x80 + cp % 64]
    else
      var x := cp / 64;
      var y := x / 64;
      [0xF0 + y / 64, 0x80 + y % 64, 0x80 + x % 64, 0x80 + cp % 64]
  }

  function Utf8Encode(s: string): (r: seq<byte>)
    decreases |s|
  {
    if |s| == 0 then [] else Utf8(s[0]) + Utf8Encode(s[1..])
  }

  /**
   * Decodes the character at the front of `bs` and the number of bytes it took;
   * `None` for a sequence RFC 3629 calls ill-formed (bad lead or continuation
   * byte, overlong form, surrogate, or a value beyond U+10FFFF).
   */
  function DecodeFirst(bs: seq<byte>): (r: Option<(char, nat)>)
    ensures r.Some? ==> 1 <= r.value.1 <= |bs|
  {
    if |bs| == 0 then None
    else
      var b0 := bs[0] as int;
      if b0 < 0x80 then Some((b0 as char, 1))
      else if b0 < 0xC2 then None
      else if b0 < 0xE0 then
        if |bs| < 2 || !IsContinuation(bs[1]) then None
        else Some((((b0 - 0xC0) * 64 + Payload(bs[1])) as char, 2))
      else if b0 < 0xF0 then
        if |bs| < 3 || !IsContinuation(bs[1]) || !IsContinuation(bs[2]) then None
        else
          var cp := ((b0 - 0xE0) * 64 + Payload(bs[1])) * 64 + Payload(bs[2]);
          if cp < 0x800 || !IsScalar(cp) then None else Some((cp as char, 3))
      else if b0 < 0xF5 then
        if |bs| < 4 || !IsContinuation(bs[1]) || !IsContinuation(bs[2]) || !IsContinuation(bs[3]) then None
        else
          var cp := (((b0 - 0xF0) * 64 + Payload(bs[1])) * 64 + Payload(bs[2])) * 64 + Payload(bs[3]);
          if cp < 0x1_0000 || !IsScalar(cp) then None else Some((cp as char, 4))
      else None
  }

  function Utf8Decode(bs: seq<byte>): Option<string>
    decreases |bs|
  {
    if |bs| == 0 then Some([])
    else
      match DecodeFirst(bs)
      case None => None
      case Some((c, n)) =>
        match Utf8Decode(bs[n..])
        case None => None
        case Some(rest) => Some([c] + rest)
  }

  /** The decoder reads back exactly the character the encoder wrote, whatever follows it. */
  lemma DecodeFirstOfUtf8(c: char, rest: seq<byte>)
    ensures DecodeFirst(Utf8(c) + rest) == Some((c, |Utf8(c)|))
  {
    var cp := c as int;
    var bs := Utf8(c) + rest;
    if cp < 0x80 {
    } else if cp < 0x800 {
      assert cp == (cp / 64) * 64 + cp % 64;
    } else if cp < 0x1_0000 {
      var x := cp / 64;
      assert cp == x * 64 + cp % 64;
      assert x == (x / 64) * 64 + x % 64;
      assert ((bs[0] as int - 0xE0) * 64 + Payload(bs[1])) * 64 + Payload(bs[2]) == cp;
    } else {
      var x := cp / 64;
      var y := x / 64;
      assert cp == x * 64 + cp % 64;
      assert x == y * 64 + x % 64;
      assert y == (y / 64) * 64 + y % 64;
      assert (((bs[0] as int - 0xF0) * 64 + Payload(bs[1])) * 64 + Payload(bs[2])) * 64 + Payload(bs[3]) == cp;
    }
  }

  /** Decoding the UTF-8 form of a string gives the string back. */
  lemma {:induction false} Utf8RoundTrip(s: string)
    ensures Utf8Decode(Utf8Encode(s)) == Some(s)
    decreases |s|
  {
    if |s| > 0 {
      var bs := Utf8Encode(s);
      DecodeFirstOfUtf8(s[0], Utf8Encode(s[1..]));
      assert bs[|Utf8(s[0])|..] == Utf8Encode(s[1..]);
      Utf8RoundTrip(s[1..]);
      assert [s[0]] + s[1..] == s;
    }
  }

  // ---------------------------------------------------------------------------
  // Percent escapes
  // ---------------------------------------------------------------------------

  /** The upper-case hexadecimal digits `encodeURIComponent` writes. */
  predicate IsUpperHex(c: char) { ('0' <= c <= '9') || ('A' <= c <= 'F') }

  function HexDigit(n: nat): (c: char)
    requires n < 16
    ensures IsUpperHex(c)
  {
    if n < 10 then ('0' as int + n) as char else ('A' as int + n - 10) as char
  }

  /** The value of a hexadecimal digit of either case. */
  function HexValue(c: char): (r: Option<nat>)
    ensures r.Some? ==> r.value < 16
  {
    if '0' <= c <= '9' then Some(c as int - '0' as int)
    else if 'A' <= c <= 'F' then Some(c as int - 'A' as int + 10)
    else if 'a' <= c <= 'f' then Some(c as int - 'a' as int + 10)
    else None
  }

  lemma HexValueOfDigit(n: nat)
    requires n < 16
    ensures HexValue(HexDigit(n)) == Some(n)
  {
  }

  /** `%XY`, the escape of one byte. */
  function Escape(b: byte): string {
    ['%', HexDigit(b / 16), HexDigit(b % 16)]
  }

  function EscapeAll(bs: seq<byte>): string
    decreases |bs|
  {
    if |bs| == 0 then [] else Escape(bs[0]) + EscapeAll(bs[1..])
  }

  /** The encoding of one character: itself when unescaped, otherwise its escaped UTF-8 bytes. */
  function EncodeChar(c: char): string {
    if IsUnescaped(c) then [c] else EscapeAll(Utf8(c))
  }

  /** `encodeURIComponent(s)` for a string of Unicode scalar values. */
  function EncodeURIComponent(s: string): (r: string)
    ensures WellEscaped(r)
    decreases |s|
  {
    if |s| == 0 then []
    else
      var head := EncodeChar(s[0]);
      assert WellEscaped(head) by { EncodeCharWellEscaped(s[0]); }
      var tail := EncodeURIComponent(s[1..]);
      ConcatWellEscaped(head, tail);
      head + tail
  }

  /**
   * The shape of an encoded component: only unescaped characters and `%`, each `%`
   * starting a triplet with two upper-case hexadecimal digits. (Hexadecimal digits
   * are themselves unescaped characters, so this is exactly "a run of unescaped
   * characters and `%XY` triplets".)
   */
  predicate WellEscaped(r: string) {
    && (forall i :: 0 <= i < |r| ==> IsUnescaped(r[i]) || r[i] == '%')
    && (forall i :: 0 <= i < |r| && r[i] == '%' ==> TripletAt(r, i))
  }

  /** Two upper-case hexadecimal digits follow offset `i`. */
  predicate TripletAt(r: string, i: nat) {
    i + 2 < |r| && IsUpperHex(r[i + 1]) && IsUpperHex(r[i + 2])
  }

  lemma ConcatWellEscaped(a: string, b: string)
    requires WellEscaped(a) && WellEscaped(b)
    ensures WellEscaped(a + b)
  {
    var ab := a + b;
    forall i | 0 <= i < |ab|
      ensures IsUnescaped(ab[i]) || ab[i] == '%'
    {
      if i >= |a| { assert ab[i] == b[i - |a|]; }
    }
    forall i | 0 <= i < |ab| && ab[i] == '%'
      ensures TripletAt(ab, i)
    {
      if i >= |a| {
        assert ab[i] == b[i - |a|];
        assert TripletAt(b, i - |a|);
        assert ab[i + 1] == b[i - |a| + 1] && ab[i + 2] == b[i - |a| + 2];
      } else {
        assert TripletAt(a, i);
      }
    }
  }

  lemma {:induction false} EscapeAllWellEscaped(bs: seq<byte>)
    ensures WellEscaped(EscapeAll(bs))
    decreases |bs|
  {
    if |bs| > 0 {
      EscapeAllWellEscaped(bs[1..]);
      ConcatWellEscaped(Escape(bs[0]), EscapeAll(bs[1..]));
    }
  }

  lemma EncodeCharWellEscaped(c: char)
    ensures WellEscaped(EncodeChar(c))
  {
    if !IsUnescaped(c) {
      EscapeAllWellEscaped(Utf8(c));
    }
  }

  /** An encoded component can carry no character that would end or split a query parameter. */
  lemma EncodedHasNoDelimiters(s: string)
    ensures forall i :: 0 <= i < |EncodeURIComponent(s)| ==>
      EncodeURIComponent(s)[i] !in {' ', '&', '=', '#', '+', '?', '/'}
  {
  }

  // ---------------------------------------------------------------------------
  // The reference decoder
  // ---------------------------------------------------------------------------

  /** Replaces each `%XY` by its byte and every other character by its UTF-8 bytes. */
  function Unescape(s: string): Option<seq<byte>>
    decreases |s|
  {
    if |s| == 0 then Some([])
    else if s[0] == '%' then
      if |s| < 3 then None
      else
        match (HexValue(s[1]), HexValue(s[2]), Unescape(s[3..]))
        case (Some(h), Some(l), Some(rest)) => Some([h * 16 + l] + rest)
        case _ => None
    else
      match Unescape(s[1..])
      case None => None
      case Some(rest) => Some(Utf8(s[0]) + rest)
  }

  /** `decodeURIComponent(s)`, with `None` where it throws `URIError`. */
  function DecodeURIComponent(s: string): Option<string> {
    match Unescape(s)
    case None => None
    case Some(bs) => Utf8Decode(bs)
  }

  lemma {:induction false} UnescapeEscapeAll(bs: seq<byte>, t: string)
    ensures Unescape(EscapeAll(bs) + t) ==
      (if Unescape(t).Some? then Some(bs + Unescape(t).value) else None)
    decreases |bs|
  {
    if |bs| > 0 {
      var b := bs[0];
      var u := EscapeAll(bs) + t;
      assert u == Escape(b) + (EscapeAll(bs[1..]) + t);
      assert u[3..] == EscapeAll(bs[1..]) + t;
      HexValueOfDigit(b / 16);
      HexValueOfDigit(b % 16);
      UnescapeEscapeAll(bs[1..], t);
      if Unescape(t).Some? {
        assert [b] + (bs[1..] + Unescape(t).value) == bs + Unescape(t).value;
      }
    } else {
      assert EscapeAll(bs) + t == t;
      if Unescape(t).Some? {
        assert bs + Unescape(t).value == Unescape(t).value;
      }
    }
  }

  /** Undoing the escapes of an encoded string yields the string's UTF-8 bytes. */
  lemma {:induction false} UnescapeEncoded(s: string)
    ensures Unescape(EncodeURIComponent(s)) == Some(Utf8Encode(s))
    decreases |s|
  {
    if |s| > 0 {
      var c := s[0];
      var tail := EncodeURIComponent(s[1..]);
      UnescapeEncoded(s[1..]);
      if IsUnescaped(c) {
        var u := [c] + tail;
        assert EncodeURIComponent(s) == u;
        assert u[1..] == tail;
      } else {
        UnescapeEscapeAll(Utf8(c), tail);
      }
    }
  }

  /** `decodeURIComponent(encodeURIComponent(s)) == s`: the search term reaches the server intact. */
  lemma EncodeRoundTrip(s: string)
    ensures DecodeURIComponent(EncodeURIComponent(s)) == Some(s)
  {
    UnescapeEncoded(s);
    Utf8RoundTrip(s);
  }

  /** Distinct strings encode to distinct components. */
  lemma EncodeInjective(a: string, b: string)
    ensures EncodeURIComponent(a) == EncodeURIComponent(b) ==> a == b
  {
    EncodeRoundTrip(a);
    EncodeRoundTrip(b);
  }

  /** Encoding works character by character. */
  lemma {:induction false} EncodeConcat(a: string, b: string)
    ensures EncodeURIComponent(a + b) == EncodeURIComponent(a) + EncodeURIComponent(b)
    decreases |a|
  {
    if |a| == 0 {
      assert a + b == b;
    } else {
      assert (a + b)[0] == a[0];
      assert (a + b)[1..] == a[1..] + b;
      EncodeConcat(a[1..], b);
    }
  }

  /** The worked example: a space becomes `%20` and an ampersand `%26`. */
  lemma EncodeExample(s: string)
    requires s == "Test & Query"
    ensures EncodeURIComponent(s) == "Test%20%26%20Query"
  {
    SplitExample(s);
    EncodeFive("Test", " ", "&", "Query");
    ExampleParts();
    AssembleExample(EncodeURIComponent(s), "Test", "%20", "%26", "Query");
  }

  /** The encodings of the example's pieces. */
  lemma ExampleParts()
    ensures EncodeURIComponent("Test") == "Test" && EncodeURIComponent("Query") == "Query"
    ensures EncodeURIComponent(" ") == "%20" && EncodeURIComponent("&") == "%26"
  {
    EncodeUnescaped("Test");
    EncodeUnescaped("Query");
    SpaceAndAmpersand();
  }

  lemma SpaceAndAmpersand()
    ensures EncodeURIComponent(" ") == "%20" && EncodeURIComponent("&") == "%26"
  {
    EncodeSingle(" ", 0x20);
    EncodeSingle("&", 0x26);
    EscapeExamples();
  }

  lemma EscapeExamples()
    ensures Escape(0x20) == "%20" && Escape(0x26) == "%26"
  {
  }

  lemma SplitExample(s: string)
    requires s == "Test & Query"
    ensures s == "Test" + (" " + ("&" + (" " + "Query")))
  {
  }

  lemma AssembleExample(e: string, a: string, b: string, c: string, d: string)
    requires e == a + (b + (c + (b + d)))
    requires a == "Test" && b == "%20" && c == "%26" && d == "Query"
    ensures e == "Test%20%26%20Query"
  {
  }

  lemma EncodeFive(a: string, b: string, c: string, d: string)
    ensures EncodeURIComponent(a + (b + (c + (b + d)))) ==
      EncodeURIComponent(a) + (EncodeURIComponent(b) + (EncodeURIComponent(c) + (EncodeURIComponent(b) + EncodeURIComponent(d))))
  {
    EncodeConcat(a, b + (c + (b + d)));
    EncodeConcat(b, c + (b + d));
    EncodeConcat(c, b + d);
    EncodeConcat(b, d);
  }

  /** A single ASCII character outside the unescaped set becomes one `%XY` triplet. */
  lemma EncodeSingle(s: string, b: byte)
    requires |s| == 1 && s[0] as int == b && b < 0x80 && !IsUnescaped(s[0])
    ensures EncodeURIComponent(s) == Escape(b)
  {
    assert Utf8(s[0]) == [b];
    assert EscapeAll([b]) == Escape(b) + EscapeAll([]);
  }

  /** A string of unescaped characters is its own encoding. */
  lemma {:induction false} EncodeUnescaped(s: string)
    requires forall i :: 0 <= i < |s| ==> IsUnescaped(s[i])
    ensures EncodeURIComponent(s) == s
    decreases |s|
  {
    if |s| > 0 {
      EncodeUnescaped(s[1..]);
      assert [s[0]] + s[1..] == s;
    }
  }
}

=== FILE: wrappers.dfy ===
/** Failure-carrying wrappers shared by every layer of the model. */
module Wrappers {

  /** A value that may be absent: Java's nullable references, TypeScript's optional fields. */
  datatype Option<+T> = None | Some(value: T) {
    function GetOr(default: T): T {
      match this
      case Some(v) => v
      case None => default
    }
  }

  /** The outcome of a service call: a value, or the failure it was thrown with. */
  datatype Result<+T, +E> = Ok(value: T) | Err(error: E)
}

/** Wall-clock time. `LocalDateTime.now()` and `new Date()` become explicit parameters of this type. */
module Clock {

  /** An instant, as a count of ticks since some epoch. */
  type Time = nat
}
